=== FILE: README.md ===
# Gym attendance tracker: a verified model

This project models the core of a small gym attendance tracker: a web
application in which members sign up, log in, log one gym visit per day,
record a membership payment (valid for 30 days), and see how often they
went this month. The application keeps two tables: users, and workouts
(one row per visit). It is modelled in five modules:

- `Basics` (basics.dfy): Option, Python's `str.strip()`, prefix matching,
  and the code-point string order that SQLite's `ORDER BY` and Python's
  `sorted` use.
- `Calendar` (calendar.dfy): the proleptic Gregorian calendar for years
  1 to 9999. It holds a day-number (ordinal) conversion like Python's
  `date.toordinal`, adding days with the overflow past 9999-12-31, and the
  `YYYY-MM-DD` text form (ISO 8601 calendar date, extended format) with a
  parse/print round trip.
- `Database` (database.dfy): the persistence layer as a `Store` class.
  Its fields are the two tables as row sequences, the users table's column
  list, and the two AUTOINCREMENT counters. Methods model the statements
  that write, and functions the queries.
- `GymDates` (gymdates.dfy): the application's date-string logic. This is
  the tolerant parser of stored visit timestamps, the expiry computation,
  the stored visit string, the "this month" filter and the sorted list of
  distinct days.
- `App` (app.dfy): the request handlers as methods of a `GymApp` class
  that holds the store. The login session is a `Session` object.

Responses are values: a redirect or a rendered form with the flashed
message kind (`Notice`), a page's data, or `ServerError` for an unhandled
exception (HTTP 500).

Things outside the program become parameters:
- the current time (`now`);
- the bcrypt digest of a submitted password (`hashed`);
- bcrypt's check (`checkpw`), a function parameter.

The model follows the code, in particular:
- The seeded demo account expires on the same day one year later, not 30 days later.
- `ensure_db` checks a per-process flag on every request. It is not a separate startup step.
- Signup rejects an empty e-mail, although e-mail is described as optional.
- `create_user` turns every failed insert into the "username taken" answer, not only a duplicate username.

## Model

| member | source | states |
|---|---|---|
| Basics.Strip | app.py:44 | `str.strip()`: the result is no longer than the input, is empty exactly when the input is all whitespace, and otherwise starts and ends with a non-space character |
| Basics.StripSurrounds | app.py:44 | strip removes only whitespace: the input is the result with whitespace before and after it |
| Basics.LexLessTransitive | database.py:119 | the text order used by ORDER BY is transitive |
| Basics.LexLessTotal | app.py:118 | any two different texts are ordered one way or the other |
| Basics.StrictlyAscendingDistinct | app.py:118 | a strictly ascending list holds no value twice |
| Calendar.DaysInMonth | app.py:135 | every month has 28 to 31 days |
| Calendar.Ordinal | app.py:135 | a valid date's day number lies inside its year and within 1..3652059 |
| Calendar.OrdinalInjective | app.py:135 | two valid dates with the same day number are the same date |
| Calendar.NextDay | app.py:135 | the following day is valid and has the next day number |
| Calendar.AddDays | app.py:135 | adding n days succeeds exactly when the result stays within 9999-12-31, and the result's day number is n more |
| Calendar.AddDaysUnique | app.py:135 | the sum is the only valid date n days later |
| Calendar.FormatDate | app.py:135 | `strftime("%Y-%m-%d")`: ten characters with dashes at positions 4 and 7, whose digit fields read back as the year, month and day |
| Calendar.ParseIsoDate | app.py:135 | `strptime(s, "%Y-%m-%d")`: on success s is ten characters with dashes at 4 and 7, and the valid date is the one its digit fields spell |
| Calendar.ParseIsoDateExactly | app.py:135 | parsing succeeds exactly on the texts that formatting writes for valid dates |
| Calendar.ParseFormatDate | app.py:135 | parsing the printed `YYYY-MM-DD` form of a valid date gives the date back |
| Calendar.FormatParsedDate | app.py:135 | printing a parsed date gives the original text back, so only the canonical spelling parses |
| Calendar.Digits4OfValue | app.py:135 | four digits read as a number and printed again are the same digits |
| Database.FindUser | database.py:41-52 | a found row is in the table and has that username; nothing is found exactly when no row has it |
| Database.FindUserUnique | database.py:20 | with unique usernames, the lookup returns the one row with that name |
| Database.SetPayment | database.py:71-83 | the UPDATE keeps every row's position and changes only the row with that id, in its two payment columns |
| Database.SetPaymentOnlyThatRow | database.py:76-80 | rows with another id are unchanged; the row with the id keeps its id, name, password and e-mail and gets both new dates |
| Database.SetPaymentMissingId | database.py:76-80 | an id that no row has changes nothing |
| Database.VisitsOf | database.py:118-120 | the selected pairs are exactly the (id, date) pairs of that user's rows |
| Database.VisitsOfAppend | database.py:118-120 | selecting from two tables one after the other is selecting from each and concatenating |
| Database.VisitsOfCount | database.py:118-120 | one pair is selected per row of that user, so the count equals the number of the user's rows |
| Database.InsertByDate | database.py:119 | inserting into a date-ordered list keeps it ordered and adds exactly that row |
| Database.SortByDate | database.py:119 | the result is in non-decreasing date order and is a permutation of the input |
| Database.SortedByDateAll | database.py:119 | in a date-ordered list, any earlier row's date is at most any later row's |
| Database.ExistsOnDate | database.py:126-137 | true exactly when some row of that user has a date beginning with the given text |
| Database.Migrate | database.py:85-110 | the old columns stay in place as a prefix, and both payment columns are present afterwards |
| Database.MigrateIdempotent | database.py:85-110 | migrating a migrated column list changes nothing |
| Database.MigrateTimesIsOnce | database.py:85-110 | any positive number of migrations is the same as one |
| Database.MigrateExactlyOnce | database.py:98-106 | each payment column appears exactly once, no column is duplicated, and nothing else is added |
| Database.Store.Empty | database.py:4-8 | a database file with no tables yet satisfies the store invariant |
| Database.Store.Legacy | database.py:93-96 | a database whose users table already exists with an earlier column list and no rows satisfies the store invariant |
| Database.Store.InitDb | database.py:10-39 | creates a missing table with the full schema; existing tables, columns and rows are untouched |
| Database.Store.UserByUsername | database.py:41-52 | returns the row with that username, or None exactly when there is none |
| Database.Store.CreateUser | database.py:54-69 | appends one row with the next id when the table and columns exist and the name is new; otherwise returns None and leaves the table unchanged |
| Database.Store.UpdatePayment | database.py:71-83 | the users table becomes the UPDATE's result; the workouts table is untouched |
| Database.Store.AddPaymentColumns | database.py:85-110 | the column list becomes its migration; the store is ready once both tables exist |
| Database.Store.WorkoutsByUser | database.py:113-124 | the user's (id, date) pairs, ordered by date, as a permutation of the matching rows |
| Database.Store.WorkoutExistsOnDate | database.py:126-137 | true exactly when a row of that user has a date starting with the given text |
| Database.Store.AddWorkout | app.py:193 | appends one workout row with the next id and returns true |
| GymDates.ParseStamp | app.py:205-207 | `strptime(s, "%Y-%m-%d %H:%M:%S")`: on success s is 19 characters, its first ten spell the date, and the hour, minute and second are the digit fields after the space and colons |
| GymDates.ParseStampOfFormat | app.py:205-207 | a printed `YYYY-MM-DD HH:MM:SS` stamp parses back to the same datetime |
| GymDates.ParseStampFraction | app.py:205-207 | `strptime(s, "%Y-%m-%d %H:%M:%S.%f")`: on success s has 21 to 26 characters and its first ten spell the date |
| GymDates.Strptime | app.py:205-207 | each stored format, on success, gives a valid datetime whose date is spelled by the first ten characters; the date-only format needs exactly ten characters and gives midnight, the stamp format exactly nineteen |
| GymDates.FirstMatch | app.py:205-209 | the first format in the list that parses; None exactly when every format fails |
| GymDates.ParseStoredDate | app.py:201-210 | the result is a valid datetime, and is either the minimum datetime or the date spelled by the value's first ten characters |
| GymDates.ParseDate | app.py:201-210 | the loop over the formats returns the same value as the specification |
| GymDates.FractionFormatNeverMatches | app.py:205-207 | after the cut to 19 characters, the fractional-seconds format never parses |
| GymDates.ParseStoredDateOfDate | app.py:205 | a stored `YYYY-MM-DD` value parses to midnight of that date |
| GymDates.ParseStoredDateOfStamp | app.py:205-207 | a stored `YYYY-MM-DD HH:MM:SS` value parses to that datetime, whatever follows character 19 |
| GymDates.ParseStoredDateFallback | app.py:210 | when neither format parses the first 19 characters, the result is the minimum datetime |
| GymDates.PaymentExpiry | app.py:135 | an expiry exists exactly when the payment date is a valid `YYYY-MM-DD` date at least 30 days before 9999-12-31; it is then a valid date text exactly 30 days later |
| GymDates.PaymentExpiryOf | app.py:135 | the expiry of a date's text is the text of the date 30 days later |
| GymDates.PaymentExpiryExample | app.py:135 | 2024-01-15 expires on 2024-02-14 |
| GymDates.PaymentExpiryLeapYear | app.py:135 | 2024-02-15 expires on 2024-03-16, across 29 February |
| GymDates.PaymentExpiryCenturyYear | app.py:135 | 2100-02-15 expires on 2100-03-17, since 2100 has no 29 February |
| GymDates.PaymentExpiryYearEnd | app.py:135 | 2023-12-15 expires on 2024-01-14 |
| GymDates.PaymentExpiryOverflow | app.py:135 | 9999-12-15 has no expiry: the addition overflows |
| GymDates.PaymentExpiryMalformed | app.py:135 | 2023-02-29, 15/01/2024 and a date with a trailing space have no expiry |
| GymDates.SameDayNextYear | app.py:219 | the same month and day one year later; absent exactly on 29 February and in year 9999 |
| GymDates.VisitedAt | app.py:186-189 | the stored visit string always starts with the date followed by a space |
| GymDates.VisitedAtMidnight | app.py:188-189 | with no time, the visit parses to midnight of the chosen date |
| GymDates.VisitedAtHourMinute | app.py:186-187 | an HH:MM time gets ":00" added and parses to that minute of the date |
| GymDates.VisitedAtFullTime | app.py:186-187 | an HH:MM:SS time is kept as is and parses to that second of the date |
| GymDates.VisitedAtNoColonUnparsable | app.py:186-187 | a time without a colon gives a visit string that parses only to the minimum datetime |
| GymDates.InMonth | app.py:89 | outside January of year 1 (the month of `datetime.min`), a counted value starts with the text of a date in now's month and year |
| GymDates.ThisMonth | app.py:87-90 | keeps exactly the rows whose parsed month and year are now's, each as often as in the input |
| GymDates.UnparsableNotCounted | app.py:109-112 | once now is past year 1, a row whose date does not parse is never counted |
| GymDates.InsertDistinct | app.py:118 | adding a value to a strictly ascending list keeps it strictly ascending and adds only that value |
| GymDates.SortedDistinct | app.py:118 | `sorted(set(xs))`: strictly ascending, with exactly the values of xs |
| GymDates.AscendingUnique | app.py:118 | two strictly ascending lists with the same values are equal, so the sorted set is unique |
| GymDates.DayKey | app.py:113 | `str(d[1])[:10]`: the first ten characters of the stored value, or all of it when shorter |
| GymDates.DayKeyIsDay | app.py:113 | for a value that parses, the key is exactly the text of the day it parses to |
| GymDates.DayKeysMembers | app.py:113 | a day is in the key list exactly when some visit's first ten characters spell it |
| GymDates.MonthDays | app.py:113-118 | strictly ascending, no longer than the month's visit list, and holding exactly the first ten characters of this month's visits |
| GymDates.MonthDaysDistinct | app.py:118 | no day appears twice in the progress page's list |
| GymDates.ThisMonthOrderFree | app.py:96 | the month's count does not depend on the order the rows come in |
| GymDates.MonthDaysOrderFree | app.py:118 | the day list does not depend on the order the rows come in |
| App.LoggedDayIsTaken | app.py:190-193 | after a visit on a day is stored, the duplicate check finds that day |
| App.Session.constructor | app.py:23 | a new visitor's session holds neither key |
| App.GymApp.SeedDemoUser | app.py:212-219 | if user1 exists, nothing changes; otherwise user1 is appended under the next id, paid today and expiring on the same day next year; on 29 February or in year 9999 nothing is added and the call fails |
| App.GymApp.PrepareTables | app.py:28-29 | `init_db` then `add_payment_columns`: both tables exist and the column list is the migration of the old one (or of the full schema for a new table) |
| App.GymApp.EnsureDb | app.py:26-32 | both tables exist with the payment columns afterwards; once seeding has succeeded a call changes no user; before that the call seeds exactly as `seed_demo_user` does and the flag goes up exactly when seeding succeeds; the application invariant is kept |
| App.GymApp.Login | app.py:43-61 | empty fields, an unknown user and a wrong password are refused with the session untouched, and the last two get the same message; only success sets both session keys |
| App.GymApp.Logout | app.py:66-69 | both session keys are gone and the visitor is sent to login |
| App.GymApp.SignUp | app.py:147-168 | an empty field adds nothing; a taken username adds nothing and shows the "taken" message; otherwise one row with no payment dates is appended and the visitor is sent to login; the application invariant is kept, so a later request can follow |
| App.GymApp.Dashboard | app.py:71-99 | without a session, redirect to login; with a session whose username has a row, the dashboard is shown: the total is the number of the user's workout rows and the month count is at most the total; the payment dates are those of the session's username; a missing user row is a server error |
| App.GymApp.Progress | app.py:101-120 | without a session, redirect to login; the days are strictly ascending, at most as many as the counted visits, and are exactly the days of this month's visits |
| App.GymApp.UpdatePayment | app.py:124-141 | no date changes nothing and shows the current dates; a malformed or overflowing date fails before any write; a valid date writes it and its 30-day expiry together on the session's user row; the application invariant is kept, so a later request can follow |
| App.GymApp.LogWorkout | app.py:174-197 | without a session or with an empty date, nothing is stored; a day already taken stores nothing; otherwise exactly one visit row is appended; afterwards the day is always taken; the application invariant is kept, so a later request can follow |
| App.GymApp.LogWorkoutAsWritten | app.py:190-196 | the program as written: a free day ends in a server error |
| App.TwoRequests | app.py:30-32 | over two requests, at most one demo user is added, and once one request succeeds the next does too |
| App.SignUpThenLogIn | app.py:147-168 | signing up with a fresh name and then logging in with the same password lands on the dashboard as the new user |
| App.LogSameDayTwice | app.py:190-191 | the same date submitted twice: the second is told the day is taken, and at most one row is added |
| App.ServeSignUp | app.py:25-32 | a signup request runs `ensure_db` first and the handler only if it succeeded; the application invariant holds before and after the request |
| App.AsWrittenLosesVisit | app.py:193 | as written, logging a visit on a free day fails and the day stays free |

## Left out

- Flask plumbing is not modelled: routing, `url_for`, template rendering, the flashed texts (only their kind is kept), the secret key and `app.run`.
- The `/` route's redirect is not modelled.
- GET requests to `/login`, `/signup` and `/log_workout` only render a form and are not modelled. `/update_payment` is the exception: its GET shares the path of a missing date.
- bcrypt is a foreign library. The digest is a parameter and `checkpw` is a function parameter. The `ValueError` that `checkpw` raises on a malformed stored hash is not modelled.
- SQLite connections, commits and cursors are not modelled; only the effect on the tables is.
- `add_payment_columns` is only modelled when the users table exists, which `ensure_db` guarantees by calling `init_db` first.
- `datetime.now()` is one `now` parameter. The source reads the clock several times in one request, and `seed_demo_user` calls it three times.
- The `%B %Y` month label on the progress page is locale formatting and is not modelled.
- `strptime` leniencies are not modelled: fields without zero padding, a run of whitespace characters (a tab, several spaces) where the `%Y-%m-%d %H:%M:%S` format has its one space, space-padded days such as `2024-01- 5`, and non-ASCII digits. Only the canonical fixed-width digits with a single space parse; such texts fail to parse here where Python accepts them (a stored visit then falls back to `datetime.min`, a payment date is refused).
- The `hasattr(value, "month")` branch of `_parse_date` is not modelled, because stored dates are TEXT.
- `strftime("%Y")` pads years below 1000 to four digits here. Python's output for such years depends on the platform.
- Database.ExistsOnDate: the LIKE match is modelled as a plain prefix match. The wildcard meaning of `%` and `_` inside the date text, and SQLite's ASCII case-insensitivity, are not modelled.
- Database.SortByDate: rows with equal dates are put in one fixed order. SQLite leaves their order open; every property stated about the sorted list holds for any order.
- The check-then-insert races in `signup` and `log_workout` need concurrent requests and are not modelled.
- Missing form fields in `signup` are not modelled: `request.form.get(...)` returns None and `.strip()` raises. The fields are strings.
- `create_user`'s default e-mail argument is not modelled, since every caller passes one.
- App.GymApp.LogWorkout: the "could not save" branch is unreachable once `add_workout` returns true, so it is not modelled.
- App.GymApp.Login, App.GymApp.Dashboard, App.GymApp.Progress: these handlers are modelled only on a store whose tables exist, as `ensure_db` leaves it before every request. On a database file without tables their SELECTs raise and the request fails with a server error; that path is not modelled.
- App.GymApp.Dashboard: the session's user id and username are read independently, as in the source. No link between them is assumed.
- A users table whose column list lacks username, password or email is excluded by the store invariant. The only migration in the code adds the payment columns, so any existing users table is taken to have username, password and email.

## Findings

| source | as written | input that shows it | evidently intended | confidence | as-written member | corrected member |
|---|---|---|---|---|---|---|
| app.py:193 | `log_workout` calls `db.add_workout`, which database.py does not define, so the call raises AttributeError | a logged-in user posts a date with no visit yet, e.g. 2024-01-15 | insert the workout row (user id, visit string) and return a true value | high; not executed | App.GymApp.LogWorkoutAsWritten, App.AsWrittenLosesVisit | App.GymApp.LogWorkout, App.LoggedDayIsTaken, Database.Store.AddWorkout |

=== FILE: app.dfy ===
/**
 * The web application's request handlers.  Each route becomes a method (or,
 * where it only reads, a function) of GymApp; the login session is a
 * separate object the handlers read and update.  Rendering a template is
 * modelled by the Response value the handler returns, flash messages by the
 * Notice it carries.
 */
module App {
  import opened Basics
  import opened Calendar
  import opened Database
  import opened GymDates

  /** The signed session cookie: the two keys login sets and logout pops. */
  class Session {
    var userId: Option<int>
    var username: Option<string>

    /** A visitor with nothing in the session. */
    constructor ()
      ensures userId.None? && username.None?
    {
      userId, username := None, None;
    }

    /** session.get("username", "") */
    function Username(): string
      reads this
    {
      username.GetOr("")
    }
  }

  datatype Page = LoginPage | SignupPage | DashboardPage | LogWorkoutPage | UpdatePaymentPage

  /** The flashed messages, one constructor per message text. */
  datatype Notice =
    | PleaseLogIn
    | MissingCredentials
    | InvalidCredentials
    | Welcome(name: string)
    | LoggedOut
    | FillAllFields
    | AccountCreated
    | UsernameTaken
    | PickDate
    | AlreadyLogged
    | WorkoutLogged
    | PaymentUpdated

  /** What a handler answers: a redirect, a rendered page, or an unhandled exception (HTTP 500). */
  datatype Response =
    | Redirect(to: Page, notice: Notice)
    | Form(page: Page, flash: Option<Notice>)
    | DashboardView(username: string, totalWorkouts: nat, thisMonthCount: nat,
                    lastPaymentDate: Option<string>, expiryDate: Option<string>)
    | ProgressView(username: string, count: nat, dates: seq<string>)
    | PaymentView(lastPaymentDate: Option<string>, expiryDate: Option<string>)
    | ServerError

  const DemoUsername := "user1"
  const DemoEmail := "user1@example.com"

  /** After a visit on day d is stored, the duplicate check finds that day. */
  lemma {:induction false} LoggedDayIsTaken(workouts: seq<WorkoutRow>, id: int, userId: int,
                                            date: string, time: string)
    ensures ExistsOnDate(workouts + [WorkoutRow(id, userId, VisitedAt(date, time))], userId, date)
  {
    var stored := VisitedAt(date, time);
    var all := workouts + [WorkoutRow(id, userId, stored)];
    assert stored[..|date|] == stored[..|date| + 1][..|date|];
    assert (date + " ")[..|date|] == date;
    assert all[|workouts|].userId == userId && StartsWith(all[|workouts|].date, date);
  }

  /**
   * What seeding the demo user does to the users table (before, lastBefore)
   * on day today: an existing "user1" is left alone and counts as success; a
   * today with no same day next year fails and changes nothing; otherwise one
   * row is appended under the next id, paid today and expiring a year later.
   */
  ghost predicate SeedOutcome(before: seq<UserRow>, lastBefore: int, after: seq<UserRow>, lastAfter: int,
                              ok: bool, hashed: string, today: Date)
    requires today.Valid()
  {
    var next := SameDayNextYear(today);
    if HasUsername(before, DemoUsername) then
      ok && after == before && lastAfter == lastBefore
    else if next.None? then
      !ok && after == before && lastAfter == lastBefore
    else
      && ok
      && after == before + [UserRow(lastBefore + 1, DemoUsername, hashed, DemoEmail,
                                    Some(FormatDate(today)), Some(FormatDate(next.value)))]
      && lastAfter == lastBefore + 1
  }

  /**
   * What POST /log_workout does for a logged-in user to the workouts table
   * (before, lastBefore), given the stripped date and time fields: no date asks
   * for one, a day already visited is refused, and otherwise one row is
   * appended under the next id.  Nothing is changed unless a row is appended.
   */
  ghost predicate LogOutcome(before: seq<WorkoutRow>, lastBefore: int, after: seq<WorkoutRow>, lastAfter: int,
                             resp: Response, userId: int, date: string, time: string)
  {
    if date == [] then
      resp == Redirect(LogWorkoutPage, PickDate) && after == before && lastAfter == lastBefore
    else if ExistsOnDate(before, userId, date) then
      resp == Redirect(DashboardPage, AlreadyLogged) && after == before && lastAfter == lastBefore
    else
      && resp == Redirect(DashboardPage, WorkoutLogged)
      && after == before + [WorkoutRow(lastBefore + 1, userId, VisitedAt(date, time))]
      && lastAfter == lastBefore + 1
  }

  /** The Flask application: the database it talks to and ensure_db's _seeded flag. */
  class GymApp {
    const db: Store
    var seeded: bool

    ghost predicate Valid()
      reads this, db
    {
      db.Valid() && (seeded ==> db.Ready() && HasUsername(db.users, DemoUsername))
    }

    /** A freshly started process: nothing seeded yet. */
    constructor (db: Store)
      requires db.Valid()
      ensures this.db == db && !seeded && Valid()
    {
      this.db := db;
      seeded := false;
    }

    /**
     * seed_demo_user: create "user1", paid today and expiring on the same day
     * next year, unless that user exists.  Moving today to next year fails on
     * 29 February and in year 9999; the failure (ok false) leaves the table as it was.
     */
    method SeedDemoUser(hashed: string, now: DateTime) returns (ok: bool)
      requires db.Ready() && now.Valid()
      modifies db`users, db`lastUserId
      ensures db.Ready()
      ensures SeedOutcome(old(db.users), old(db.lastUserId), db.users, db.lastUserId, ok, hashed, now.date)
      ensures ok <==> HasUsername(db.users, DemoUsername)
    {
      if db.UserByUsername(DemoUsername).Some? {
        return true;
      }
      var next := SameDayNextYear(now.date);
      if next.None? {
        return false;
      }
      var id := db.CreateUser(DemoUsername, hashed, DemoEmail,
                              Some(FormatDate(now.date)), Some(FormatDate(next.value)));
      assert db.users[|db.users| - 1].username == DemoUsername;
      ok := true;
    }

    /** The first two steps of ensure_db: init_db, then add_payment_columns. */
    method PrepareTables()
      requires db.Valid()
      modifies db`usersTable, db`workoutsTable, db`userColumns
      ensures db.Ready()
      ensures db.userColumns == Migrate(if old(db.usersTable) then old(db.userColumns) else UsersSchema)
    {
      db.InitDb();
      db.AddPaymentColumns();
    }

    /**
     * ensure_db, run before every request: create the tables, add the payment
     * columns, and seed the demo user the first time it succeeds.  ok false is
     * the request failing with the seeding error; the flag then stays down.
     */
    method EnsureDb(hashed: string, now: DateTime) returns (ok: bool)
      requires Valid() && now.Valid()
      modifies this`seeded, db`usersTable, db`workoutsTable, db`userColumns, db`users, db`lastUserId
      ensures Valid() && db.Ready()
      ensures db.userColumns == Migrate(if old(db.usersTable) then old(db.userColumns) else UsersSchema)
      ensures old(seeded) ==> ok && seeded && db.users == old(db.users) && db.lastUserId == old(db.lastUserId)
      ensures !old(seeded) ==>
        seeded == ok && SeedOutcome(old(db.users), old(db.lastUserId), db.users, db.lastUserId, ok, hashed, now.date)
      ensures ok ==> HasUsername(db.users, DemoUsername)
    {
      ghost var users, lastUserId := db.users, db.lastUserId;
      PrepareTables();
      assert db.users == users && db.lastUserId == lastUserId;
      if !seeded {
        ok := SeedDemoUser(hashed, now);
        seeded := ok;
      } else {
        ok := true;
      }
    }

    /** POST /login: an unknown user and a wrong password get the same answer and leave the session alone. */
    method Login(session: Session, username: string, password: string,
                 checkpw: (string, string) -> bool) returns (resp: Response)
      requires db.Valid() && db.Ready()
      modifies session
      ensures var name := Strip(username);
              var user := db.UserByUsername(name);
        if name == [] || password == [] then
          resp == Form(LoginPage, Some(MissingCredentials)) && unchanged(session)
        else if user.None? || !checkpw(password, user.value.password) then
          resp == Form(LoginPage, Some(InvalidCredentials)) && unchanged(session)
        else
          && resp == Redirect(DashboardPage, Welcome(user.value.username))
          && session.userId == Some(user.value.id)
          && session.username == Some(user.value.username)
    {
      var name := Strip(username);
      if name == [] || password == [] {
        return Form(LoginPage, Some(MissingCredentials));
      }
      var user := db.UserByUsername(name);
      if user.None? || !checkpw(password, user.value.password) {
        return Form(LoginPage, Some(InvalidCredentials));
      }
      session.userId := Some(user.value.id);
      session.username := Some(user.value.username);
      resp := Redirect(DashboardPage, Welcome(user.value.username));
    }

    /** GET /logout: both session keys are gone afterwards. */
    method Logout(session: Session) returns (resp: Response)
      modifies session
      ensures session.userId.None? && session.username.None?
      ensures resp == Redirect(LoginPage, LoggedOut)
    {
      session.userId, session.username := None, None;
      resp := Redirect(LoginPage, LoggedOut);
    }

    /**
     * POST /signup with the digest of the submitted password: a new user row
     * with no payment dates, or the form again.  Every refusal of the insert
     * shows the "taken" message; with the tables in place only a duplicate
     * username is refused.
     */
    method SignUp(username: string, password: string, email: string, hashed: string)
      returns (resp: Response)
      requires Valid() && db.Ready()
      modifies db`users, db`lastUserId
      ensures Valid() && db.Ready()
      ensures var name := Strip(username);
              var mail := Strip(email);
        if name == [] || password == [] || mail == [] then
          && resp == Form(SignupPage, Some(FillAllFields))
          && db.users == old(db.users) && db.lastUserId == old(db.lastUserId)
        else if old(HasUsername(db.users, name)) then
          && resp == Form(SignupPage, Some(UsernameTaken))
          && db.users == old(db.users) && db.lastUserId == old(db.lastUserId)
        else
          && resp == Redirect(LoginPage, AccountCreated)
          && db.users == old(db.users) + [UserRow(old(db.lastUserId) + 1, name, hashed, mail, None, None)]
          && db.lastUserId == old(db.lastUserId) + 1
    {
      var name := Strip(username);
      var mail := Strip(email);
      if name == [] || password == [] || mail == [] {
        resp := Form(SignupPage, Some(FillAllFields));
      } else {
        ghost var before := db.users;
        var id := db.CreateUser(name, hashed, mail, None, None);
        if seeded {
          ghost var k :| 0 <= k < |before| && before[k].username == DemoUsername;
          assert db.users[k] == before[k];
        }
        if id.Some? && id.value != 0 {
          resp := Redirect(LoginPage, AccountCreated);
        } else {
          resp := Form(SignupPage, Some(UsernameTaken));
        }
      }
    }

    /**
     * GET /dashboard: the user's total visits, this month's visits and the
     * payment dates of the session's username (a username with no row
     * fails with a server error).
     */
    function Dashboard(session: Session, now: DateTime): (r: Response)
      reads db, session
      requires db.Valid() && db.Ready()
      ensures r.Redirect? || r.ServerError? || r.DashboardView?
      ensures r == Redirect(LoginPage, PleaseLogIn) <==> session.userId.None?
      ensures session.userId.Some? && HasUsername(db.users, session.Username()) ==> r.DashboardView?
      ensures r.ServerError? <==> session.userId.Some? && !HasUsername(db.users, session.Username())
      ensures r.DashboardView? ==>
        var visits := VisitsOf(db.workouts, session.userId.value);
        && r.username == session.Username()
        && r.totalWorkouts == |visits|
        && r.totalWorkouts == |set i | 0 <= i < |db.workouts| && db.workouts[i].userId == session.userId.value|
        && r.thisMonthCount == |ThisMonth(visits, now)|
        && r.thisMonthCount <= r.totalWorkouts
        && exists u :: u in db.users && u.username == r.username
                       && r.lastPaymentDate == u.lastPaymentDate && r.expiryDate == u.expiryDate
    {
      if session.userId.None? then Redirect(LoginPage, PleaseLogIn)
      else
        var rows := db.WorkoutsByUser(session.userId.value);
        var visits := VisitsOf(db.workouts, session.userId.value);
        assert |rows| == |visits| by {
          assert |multiset(rows)| == |multiset(visits)|;
        }
        ThisMonthOrderFree(rows, visits, now);
        VisitsOfCount(db.workouts, session.userId.value);
        match db.UserByUsername(session.Username())
        case None => ServerError
        case Some(u) =>
          DashboardView(session.Username(), |rows|, |ThisMonth(rows, now)|,
                        u.lastPaymentDate, u.expiryDate)
    }

    /**
     * GET /progress: how many visits fall in this month, and the distinct
     * days they were on, ascending.
     */
    function Progress(session: Session, now: DateTime): (r: Response)
      reads db, session
      requires db.Ready()
      ensures r == Redirect(LoginPage, PleaseLogIn) <==> session.userId.None?
      ensures session.userId.Some? ==> r.ProgressView?
      ensures r.ProgressView? ==>
        var visits := VisitsOf(db.workouts, session.userId.value);
        && r.username == session.Username()
        && r.count == |ThisMonth(visits, now)|
        && r.count <= |visits|
        && StrictlyAscending(r.dates)
        && |r.dates| <= r.count
        && forall day :: day in r.dates <==>
             exists v :: v in visits && InMonth(v.date, now) && DayKey(v) == day
    {
      if session.userId.None? then Redirect(LoginPage, PleaseLogIn)
      else
        var rows := db.WorkoutsByUser(session.userId.value);
        var visits := VisitsOf(db.workouts, session.userId.value);
        ThisMonthOrderFree(rows, visits, now);
        MonthDaysOrderFree(rows, visits, now);
        ProgressView(session.Username(), |ThisMonth(rows, now)|, MonthDays(rows, now))
    }

    /**
     * /update_payment.  paymentDate is the form's payment_date, None on a GET
     * or when the field is absent.  A date that is not a valid YYYY-MM-DD, or
     * whose expiry would pass year 9999, fails before anything is written;
     * otherwise the payment date and the date 30 days later are stored together.
     */
    method UpdatePayment(session: Session, paymentDate: Option<string>) returns (resp: Response)
      requires Valid() && db.Ready()
      modifies db`users
      ensures Valid() && db.Ready()
      ensures session.userId.None? ==> resp == Redirect(LoginPage, PleaseLogIn) && db.users == old(db.users)
      ensures session.userId.Some? ==>
        var user := old(db.UserByUsername(session.Username()));
        if user.None? then
          resp == ServerError && db.users == old(db.users)
        else if paymentDate.None? || paymentDate.value == [] then
          resp == PaymentView(user.value.lastPaymentDate, user.value.expiryDate) && db.users == old(db.users)
        else if PaymentExpiry(paymentDate.value).None? then
          resp == ServerError && db.users == old(db.users)
        else
          && resp == Redirect(DashboardPage, PaymentUpdated)
          && db.users == SetPayment(old(db.users), session.userId.value, paymentDate.value,
                                    PaymentExpiry(paymentDate.value).value)
    {
      if session.userId.None? {
        return Redirect(LoginPage, PleaseLogIn);
      }
      var user := db.UserByUsername(session.Username());
      if user.None? {
        return ServerError;
      }
      if paymentDate.None? || paymentDate.value == [] {
        return PaymentView(user.value.lastPaymentDate, user.value.expiryDate);
      }
      var expiry := PaymentExpiry(paymentDate.value);
      if expiry.None? {
        return ServerError;
      }
      ghost var before := db.users;
      db.UpdatePayment(session.userId.value, paymentDate.value, expiry.value);
      if seeded {
        ghost var k :| 0 <= k < |before| && before[k].username == DemoUsername;
        SetPaymentOnlyThatRow(before, session.userId.value, paymentDate.value, expiry.value, k);
        assert db.users[k].username == DemoUsername;
      }
      resp := Redirect(DashboardPage, PaymentUpdated);
    }

    /**
     * POST /log_workout with the corrected insert.  dateField and timeField
     * are the form fields (None when absent; they then default to now's date
     * and hour:minute).  At most one visit per day is stored, and after the
     * call the day is always taken.
     */
    method LogWorkout(session: Session, dateField: Option<string>, timeField: Option<string>,
                      now: DateTime) returns (resp: Response)
      requires Valid() && db.Ready() && now.Valid()
      modifies db`workouts, db`lastWorkoutId
      ensures Valid() && db.Ready()
      ensures session.userId.None? ==>
        resp == Redirect(LoginPage, PleaseLogIn)
        && db.workouts == old(db.workouts) && db.lastWorkoutId == old(db.lastWorkoutId)
      ensures session.userId.Some? ==>
        LogOutcome(old(db.workouts), old(db.lastWorkoutId), db.workouts, db.lastWorkoutId, resp,
                   session.userId.value, Strip(dateField.GetOr(FormatDate(now.date))),
                   Strip(timeField.GetOr(FormatHourMinute(now))))
      ensures session.userId.Some? && Strip(dateField.GetOr(FormatDate(now.date))) != [] ==>
        ExistsOnDate(db.workouts, session.userId.value, Strip(dateField.GetOr(FormatDate(now.date))))
    {
      if session.userId.None? {
        resp := Redirect(LoginPage, PleaseLogIn);
      } else {
        var userId := session.userId.value;
        var date := Strip(dateField.GetOr(FormatDate(now.date)));
        var time := Strip(timeField.GetOr(FormatHourMinute(now)));
        if date == [] {
          resp := Redirect(LogWorkoutPage, PickDate);
        } else if db.WorkoutExistsOnDate(userId, date) {
          resp := Redirect(DashboardPage, AlreadyLogged);
        } else {
          var stored := VisitedAt(date, time);
          LoggedDayIsTaken(db.workouts, db.lastWorkoutId + 1, userId, date, time);
          var saved := db.AddWorkout(userId, stored);
          resp := Redirect(DashboardPage, WorkoutLogged);
        }
      }
    }

    /**
     * POST /log_workout as written: database.py has no add_workout, so the
     * insert branch raises AttributeError (a server error) and nothing is stored.
     */
    method LogWorkoutAsWritten(session: Session, dateField: Option<string>, timeField: Option<string>,
                               now: DateTime) returns (resp: Response)
      requires db.Ready() && now.Valid()
      ensures session.userId.None? ==> resp == Redirect(LoginPage, PleaseLogIn)
      ensures session.userId.Some? ==>
        var userId := session.userId.value;
        var date := Strip(dateField.GetOr(FormatDate(now.date)));
        if date == [] then resp == Redirect(LogWorkoutPage, PickDate)
        else if ExistsOnDate(db.workouts, userId, date) then resp == Redirect(DashboardPage, AlreadyLogged)
        else resp == ServerError
    {
      if session.userId.None? {
        return Redirect(LoginPage, PleaseLogIn);
      }
      var date := Strip(dateField.GetOr(FormatDate(now.date)));
      if date == [] {
        return Redirect(LogWorkoutPage, PickDate);
      }
      if db.WorkoutExistsOnDate(session.userId.value, date) {
        return Redirect(DashboardPage, AlreadyLogged);
      }
      resp := ServerError;
    }
  }

  /* ------------------------------------------------------------ clients */

  /** Two requests in a row: once a request has seeded, the next one adds nobody. */
  method TwoRequests(app: GymApp, hashed: string, now: DateTime) returns (ok1: bool, ok2: bool)
    requires app.Valid() && now.Valid()
    modifies app, app.db
    ensures app.Valid()
    ensures ok1 ==> ok2
    ensures |app.db.users| <= old(|app.db.users|) + 1
  {
    ok1 := app.EnsureDb(hashed, now);
    ok2 := app.EnsureDb(hashed, now);
  }

  /** Signing up and then logging in with the same password lands on the dashboard as the new user. */
  method SignUpThenLogIn(app: GymApp, session: Session, username: string, password: string,
                         email: string, hashed: string, checkpw: (string, string) -> bool)
    returns (signedUp: Response, loggedIn: Response)
    requires app.Valid() && app.db.Ready()
    requires Strip(username) != [] && password != [] && Strip(email) != []
    requires !HasUsername(app.db.users, Strip(username))
    requires checkpw(password, hashed)
    modifies app.db, session
    ensures signedUp == Redirect(LoginPage, AccountCreated)
    ensures loggedIn == Redirect(DashboardPage, Welcome(Strip(username)))
    ensures session.userId == Some(old(app.db.lastUserId) + 1)
    ensures session.username == Some(Strip(username))
  {
    signedUp := app.SignUp(username, password, email, hashed);
    FindUserUnique(app.db.users, Strip(username), |app.db.users| - 1);
    loggedIn := app.Login(session, username, password, checkpw);
  }

  /** The same day submitted twice: the second request is told the day is taken, and one row at most is added. */
  method LogSameDayTwice(app: GymApp, session: Session, date: string, first: string, second: string,
                         now: DateTime) returns (r1: Response, r2: Response)
    requires app.Valid() && app.db.Ready() && now.Valid()
    requires session.userId.Some? && Strip(date) != []
    modifies app.db
    ensures r2 == Redirect(DashboardPage, AlreadyLogged)
    ensures |app.db.workouts| <= old(|app.db.workouts|) + 1
  {
    r1 := app.LogWorkout(session, Some(date), Some(first), now);
    r2 := app.LogWorkout(session, Some(date), Some(second), now);
  }

  /** As written, a first visit on a free day is answered with a server error and the day stays free. */
  method AsWrittenLosesVisit(app: GymApp, session: Session, date: string, time: string, now: DateTime)
    returns (resp: Response)
    requires app.db.Ready() && now.Valid()
    requires session.userId.Some? && Strip(date) != []
    requires !ExistsOnDate(app.db.workouts, session.userId.value, Strip(date))
    ensures resp == ServerError
    ensures !ExistsOnDate(app.db.workouts, session.userId.value, Strip(date))
  {
    resp := app.LogWorkoutAsWritten(session, Some(date), Some(time), now);
  }

  /**
   * A signup request as Flask serves it: ensure_db first, then the handler
   * when it succeeded.  The application's invariant holds between requests.
   */
  method ServeSignUp(app: GymApp, username: string, password: string, email: string,
                     hashed: string, demoHashed: string, now: DateTime) returns (resp: Response)
    requires app.Valid() && now.Valid()
    modifies app, app.db
    ensures app.Valid()
    ensures resp == ServerError || resp.Form? || resp == Redirect(LoginPage, AccountCreated)
  {
    var ok := app.EnsureDb(demoHashed, now);
    if !ok {
      return ServerError;
    }
    resp := app.SignUp(username, password, email, hashed);
  }
}

=== FILE: basics.dfy ===
/** Small value types and string operations shared by the rest of the model. */
module Basics {

  /** A value that may be missing (Python's None). */
  datatype Option<+T> = None | Some(value: T) {
    function GetOr(default: T): T {
      if Some? then value else default
    }
  }

  /** Characters for which Python's str.isspace() holds. */
  predicate IsSpace(c: char) {
    c in {' ', '\t', '\n', '\r', '\U{0B}', '\U{0C}', '\U{1C}', '\U{1D}', '\U{1E}', '\U{1F}',
          '\U{85}', '\U{A0}', '\U{1680}', '\U{2000}', '\U{2001}', '\U{2002}', '\U{2003}',
          '\U{2004}', '\U{2005}', '\U{2006}', '\U{2007}', '\U{2008}', '\U{2009}', '\U{200A}',
          '\U{2028}', '\U{2029}', '\U{202F}', '\U{205F}', '\U{3000}'}
  }

  predicate AllSpace(s: string) {
    forall i :: 0 <= i < |s| ==> IsSpace(s[i])
  }

  /** Number of whitespace characters at the start of s. */
  function LeadingSpaces(s: string): (n: nat)
    ensures n <= |s|
    ensures AllSpace(s[..n])
    ensures n < |s| ==> !IsSpace(s[n])
  {
    if |s| == 0 || !IsSpace(s[0]) then 0 else 1 + LeadingSpaces(s[1..])
  }

  /** Number of whitespace characters at the end of s. */
  function TrailingSpaces(s: string): (n: nat)
    ensures n <= |s|
    ensures AllSpace(s[|s| - n..])
    ensures n < |s| ==> !IsSpace(s[|s| - n - 1])
  {
    if |s| == 0 || !IsSpace(s[|s| - 1]) then 0 else 1 + TrailingSpaces(s[..|s| - 1])
  }

  /** Python's str.strip() without arguments: whitespace removed from both ends. */
  function Strip(s: string): (r: string)
    ensures |r| <= |s|
    ensures r == [] <==> AllSpace(s)
    ensures r != [] ==> !IsSpace(r[0]) && !IsSpace(r[|r| - 1])
  {
    var a := LeadingSpaces(s);
    var b := TrailingSpaces(s[a..]);
    StripCuts(s, a, b);
    StripEmpty(s, a, b);
    StripEnds(s, a, b);
    s[a..|s| - b]
  }

  /** strip() removes only whitespace: the input is the result with whitespace around it. */
  lemma StripSurrounds(s: string)
    ensures exists pre, post :: s == pre + Strip(s) + post && AllSpace(pre) && AllSpace(post)
  {
    var a := LeadingSpaces(s);
    var b := TrailingSpaces(s[a..]);
    StripCuts(s, a, b);
    SplitThree(s, a, |s| - b);
    assert Strip(s) == s[a..|s| - b];
  }

  /** The leading and the trailing whitespace that strip() cuts off do not overlap. */
  lemma StripCuts(s: string, a: nat, b: nat)
    requires a <= |s| && AllSpace(s[..a])
    requires b <= |s| - a && AllSpace(s[a..][|s[a..]| - b..])
    ensures a + b <= |s|
    ensures AllSpace(s[..a]) && AllSpace(s[|s| - b..])
  {
    assert s[a..][|s[a..]| - b..] == s[|s| - b..];
  }

  /** Nothing is left exactly when s is all whitespace. */
  lemma StripEmpty(s: string, a: nat, b: nat)
    requires a <= |s| && AllSpace(s[..a]) && (a < |s| ==> !IsSpace(s[a]))
    requires b <= |s| - a && AllSpace(s[a..][|s[a..]| - b..])
    ensures a + b == |s| <==> AllSpace(s)
  {
    if a == |s| {
      assert s[..a] == s;
    } else {
      assert !IsSpace(s[a]);
      assert s[a..][0] == s[a];
    }
  }

  /** What is left starts and ends with a non-space character. */
  lemma StripEnds(s: string, a: nat, b: nat)
    requires a <= |s| && (a < |s| ==> !IsSpace(s[a]))
    requires b <= |s| - a && (b < |s| - a ==> !IsSpace(s[a..][|s[a..]| - b - 1]))
    ensures a + b < |s| ==> !IsSpace(s[a]) && !IsSpace(s[|s| - b - 1])
  {
    if a + b < |s| {
      assert s[a..][|s[a..]| - b - 1] == s[|s| - b - 1];
    }
  }

  lemma SplitThree<T>(s: seq<T>, i: nat, j: nat)
    requires i <= j <= |s|
    ensures s == s[..i] + s[i..j] + s[j..]
  {
    assert s[..i] + s[i..j] == s[..j];
  }

  /** Python's s.startswith(p), and the plain-prefix reading of SQL's LIKE 'p%'. */
  predicate StartsWith(s: string, p: string) {
    |p| <= |s| && s[..|p|] == p
  }

  /**
   * Number of occurrences of x in s: Python's s.count(c) for a one-character
   * c, and the number of times a column name appears in a column list.
   */
  function Count<T(==)>(s: seq<T>, x: T): (n: nat)
    ensures n <= |s|
    ensures n == 0 <==> x !in s
  {
    if s == [] then 0
    else (if s[0] == x then 1 else 0) + Count(s[1..], x)
  }

  lemma {:induction false} CountAppend<T>(a: seq<T>, b: seq<T>, x: T)
    ensures Count(a + b, x) == Count(a, x) + Count(b, x)
  {
    if a == [] {
      assert a + b == b;
    } else {
      assert (a + b)[1..] == a[1..] + b;
      CountAppend(a[1..], b, x);
    }
  }

  /** Python's s[:n]: the first n characters, or all of s when it is shorter. */
  function Take(s: string, n: nat): (r: string)
    ensures |r| == if |s| <= n then |s| else n
    ensures StartsWith(s, r)
  {
    if |s| <= n then s else s[..n]
  }

  /*
   * String comparison as Python and SQLite do it for text: code point by code
   * point, a proper prefix sorting first.
   */

  predicate LexLess(a: string, b: string)
    decreases |a|
  {
    if |a| == 0 then |b| > 0
    else if |b| == 0 then false
    else a[0] < b[0] || (a[0] == b[0] && LexLess(a[1..], b[1..]))
  }

  predicate LexLeq(a: string, b: string) {
    a == b || LexLess(a, b)
  }

  lemma {:induction false} LexLessIrreflexive(a: string)
    ensures !LexLess(a, a)
  {
    if |a| > 0 {
      LexLessIrreflexive(a[1..]);
    }
  }

  lemma {:induction false} LexLessTransitive(a: string, b: string, c: string)
    requires LexLess(a, b) && LexLess(b, c)
    ensures LexLess(a, c)
    decreases |a|
  {
    if |a| > 0 && a[0] == b[0] && b[0] == c[0] {
      LexLessTransitive(a[1..], b[1..], c[1..]);
    }
  }

  lemma {:induction false} LexLessTotal(a: string, b: string)
    requires a != b
    ensures LexLess(a, b) || LexLess(b, a)
    decreases |a|
  {
    if |a| > 0 && |b| > 0 && a[0] == b[0] {
      assert a == [a[0]] + a[1..] && b == [b[0]] + b[1..];
      LexLessTotal(a[1..], b[1..]);
    }
  }

  lemma LexLessAsymmetric(a: string, b: string)
    requires LexLess(a, b)
    ensures !LexLess(b, a)
  {
    if LexLess(b, a) {
      LexLessTransitive(a, b, a);
      LexLessIrreflexive(a);
    }
  }

  lemma LexLeqTransitive(a: string, b: string, c: string)
    requires LexLeq(a, b) && LexLeq(b, c)
    ensures LexLeq(a, c)
  {
    if a != b && b != c {
      LexLessTransitive(a, b, c);
    }
  }

  /** Strictly ascending (sorted, no repetitions), checked on neighbours. */
  predicate StrictlyAscending(xs: seq<string>) {
    forall i :: 0 < i < |xs| ==> LexLess(xs[i - 1], xs[i])
  }

  /** Neighbour order gives order between any two positions. */
  lemma {:induction false} StrictlyAscendingAll(xs: seq<string>, i: int, j: int)
    requires StrictlyAscending(xs)
    requires 0 <= i < j < |xs|
    ensures LexLess(xs[i], xs[j])
    decreases j - i
  {
    if i + 1 < j {
      StrictlyAscendingAll(xs, i + 1, j);
      LexLessTransitive(xs[i], xs[i + 1], xs[j]);
    }
  }

  /** Strictly ascending sequences hold no value twice. */
  lemma StrictlyAscendingDistinct(xs: seq<string>, i: int, j: int)
    requires StrictlyAscending(xs)
    requires 0 <= i < |xs| && 0 <= j < |xs| && i != j
    ensures xs[i] != xs[j]
  {
    if i < j {
      StrictlyAscendingAll(xs, i, j);
      LexLessIrreflexive(xs[i]);
    } else {
      StrictlyAscendingAll(xs, j, i);
      LexLessIrreflexive(xs[j]);
    }
  }
}

=== FILE: calendar.dfy ===
/**
 * The proleptic Gregorian calendar as Python's datetime module implements it:
 * years 1 to 9999, day numbers counted from 0001-01-01 (day 1), adding days
 * with an overflow error past 9999-12-31, and the fixed-width digit forms
 * used by strptime/strftime for %Y, %m, %d, %H, %M and %S.
 */
module Calendar {
  import opened Basics

  const MinYear := 1
  const MaxYear := 9999

  predicate IsLeapYear(y: int) {
    y % 4 == 0 && (y % 100 != 0 || y % 400 == 0)
  }

  function DaysInMonth(y: int, m: int): (n: int)
    requires 1 <= m <= 12
    ensures 28 <= n <= 31
  {
    if m == 2 then (if IsLeapYear(y) then 29 else 28)
    else if m == 4 || m == 6 || m == 9 || m == 11 then 30
    else 31
  }

  function DaysInYear(y: int): int {
    if IsLeapYear(y) then 366 else 365
  }

  datatype Date = Date(year: int, month: int, day: int) {
    predicate Valid() {
      MinYear <= year <= MaxYear && 1 <= month <= 12 && 1 <= day <= DaysInMonth(year, month)
    }
  }

  /** Python's date.max. */
  const MaxDate := Date(MaxYear, 12, 31)

  /** The day number of date.max. */
  const MaxOrdinal := 3652059

  /** Number of days in the years 1 .. y-1. */
  function DaysBeforeYear(y: int): int
    requires y >= 1
  {
    var p := y - 1;
    p * 365 + p / 4 - p / 100 + p / 400
  }

  /** Number of days in the months 1 .. m-1 of year y. */
  function DaysBeforeMonth(y: int, m: int): int
    requires 1 <= m <= 12
  {
    (if m > 2 && IsLeapYear(y) then 1 else 0) +
    (if m == 1 then 0 else if m == 2 then 31 else if m == 3 then 59
     else if m == 4 then 90 else if m == 5 then 120 else if m == 6 then 151
     else if m == 7 then 181 else if m == 8 then 212 else if m == 9 then 243
     else if m == 10 then 273 else if m == 11 then 304 else 334)
  }

  /** Each year adds its own length to the count of days before it. */
  lemma YearStep(y: int)
    requires y >= 1
    ensures DaysBeforeYear(y + 1) == DaysBeforeYear(y) + DaysInYear(y)
  {
    var p := y - 1;
    QuotientStep4(p);
    QuotientStep100(p);
    QuotientStep400(p);
    assert DaysBeforeYear(y + 1) == y * 365 + y / 4 - y / 100 + y / 400;
    assert DaysBeforeYear(y) == p * 365 + p / 4 - p / 100 + p / 400;
  }

  /** One more year adds one to the count of multiples of 4 exactly when the new year is one. */
  lemma QuotientStep4(p: int)
    requires p >= 0
    ensures (p + 1) / 4 == p / 4 + (if (p + 1) % 4 == 0 then 1 else 0)
  {
  }

  lemma QuotientStep100(p: int)
    requires p >= 0
    ensures (p + 1) / 100 == p / 100 + (if (p + 1) % 100 == 0 then 1 else 0)
  {
  }

  lemma QuotientStep400(p: int)
    requires p >= 0
    ensures (p + 1) / 400 == p / 400 + (if (p + 1) % 400 == 0 then 1 else 0)
  {
  }

  /** A year ends no later than any later year begins. */
  lemma {:induction false} YearsOrdered(y1: int, y2: int)
    requires 1 <= y1 < y2
    ensures DaysBeforeYear(y1) + DaysInYear(y1) <= DaysBeforeYear(y2)
    decreases y2 - y1
  {
    YearStep(y1);
    if y1 + 1 < y2 {
      YearsOrdered(y1 + 1, y2);
    }
  }

  /** A month ends no later than any later month of the same year begins. */
  lemma MonthsOrdered(y: int, m1: int, m2: int)
    requires 1 <= m1 < m2 <= 12
    ensures DaysBeforeMonth(y, m1) + DaysInMonth(y, m1) <= DaysBeforeMonth(y, m2)
  {
  }

  lemma LastMonthEndsYear(y: int)
    ensures DaysBeforeMonth(y, 12) + DaysInMonth(y, 12) == DaysInYear(y)
  {
  }

  /** The position of a date within its year lies between 1 and the year's length. */
  lemma DayOfYearBounds(d: Date)
    requires d.Valid()
    ensures 1 <= DaysBeforeMonth(d.year, d.month) + d.day <= DaysInYear(d.year)
  {
    LastMonthEndsYear(d.year);
    if d.month < 12 {
      MonthsOrdered(d.year, d.month, 12);
    }
  }

  /** Every year up to 9999 ends by day MaxOrdinal. */
  lemma YearEndsByMax(y: int)
    requires MinYear <= y <= MaxYear
    ensures DaysBeforeYear(y) + DaysInYear(y) <= MaxOrdinal
  {
    if y < MaxYear {
      YearsOrdered(y, MaxYear);
    }
  }

  /** Day number of a date, 0001-01-01 being day 1 (Python's date.toordinal()). */
  function Ordinal(d: Date): (n: int)
    requires d.Valid()
    ensures DaysBeforeYear(d.year) < n <= DaysBeforeYear(d.year) + DaysInYear(d.year)
    ensures 1 <= n <= MaxOrdinal
  {
    DayOfYearBounds(d);
    YearEndsByMax(d.year);
    DaysBeforeYear(d.year) + DaysBeforeMonth(d.year, d.month) + d.day
  }

  /** Distinct dates have distinct day numbers. */
  lemma OrdinalInjective(d1: Date, d2: Date)
    requires d1.Valid() && d2.Valid()
    requires Ordinal(d1) == Ordinal(d2)
    ensures d1 == d2
  {
    if d1.year < d2.year {
      YearsOrdered(d1.year, d2.year);
    } else if d2.year < d1.year {
      YearsOrdered(d2.year, d1.year);
    } else if d1.month < d2.month {
      MonthsOrdered(d1.year, d1.month, d2.month);
    } else if d2.month < d1.month {
      MonthsOrdered(d1.year, d2.month, d1.month);
    }
  }

  /** The following calendar day; 9999-12-31 has none. */
  function NextDay(d: Date): (r: Date)
    requires d.Valid() && d != MaxDate
    ensures r.Valid()
    ensures Ordinal(r) == Ordinal(d) + 1
  {
    if d.day < DaysInMonth(d.year, d.month) then Date(d.year, d.month, d.day + 1)
    else if d.month < 12 then Date(d.year, d.month + 1, 1)
    else YearStep(d.year); Date(d.year + 1, 1, 1)
  }

  /**
   * date + timedelta(days=n): the date n days later, or None where Python
   * raises OverflowError because the result would pass 9999-12-31.
   */
  function AddDays(d: Date, n: nat): (r: Option<Date>)
    requires d.Valid()
    ensures r.Some? <==> Ordinal(d) + n <= MaxOrdinal
    ensures r.Some? ==> r.value.Valid() && Ordinal(r.value) == Ordinal(d) + n
    decreases n
  {
    if n == 0 then Some(d)
    else if d == MaxDate then None
    else AddDays(NextDay(d), n - 1)
  }

  /** The result of AddDays is the only valid date n days later. */
  lemma AddDaysUnique(d: Date, n: nat, e: Date)
    requires d.Valid() && e.Valid()
    requires Ordinal(e) == Ordinal(d) + n
    ensures AddDays(d, n) == Some(e)
  {
    OrdinalInjective(AddDays(d, n).value, e);
  }

  /** A date together with a time of day (Python's datetime, without time zone). */
  datatype DateTime = DateTime(date: Date, hour: int, minute: int, second: int, microsecond: int) {
    predicate Valid() {
      date.Valid() && 0 <= hour < 24 && 0 <= minute < 60 && 0 <= second < 60
      && 0 <= microsecond < 1000000
    }
  }

  /** Python's datetime.min. */
  const MinDateTime := DateTime(Date(MinYear, 1, 1), 0, 0, 0, 0)

  function Midnight(d: Date): DateTime {
    DateTime(d, 0, 0, 0, 0)
  }

  /*
   * Fixed-width decimal fields. Python's strptime also accepts shorter,
   * unpadded fields; this model reads only the zero-padded forms.
   */

  predicate IsDigit(c: char) {
    '0' <= c <= '9'
  }

  function DigitValue(c: char): (v: int)
    requires IsDigit(c)
    ensures 0 <= v <= 9
  {
    c as int - '0' as int
  }

  function DigitChar(v: int): (c: char)
    requires 0 <= v <= 9
    ensures IsDigit(c) && DigitValue(c) == v
  {
    ('0' as int + v) as char
  }

  predicate DigitsAt(s: string, i: nat, width: nat) {
    i + width <= |s| && forall k :: i <= k < i + width ==> IsDigit(s[k])
  }

  /** Value of the two digits at s[i], s[i+1]. */
  function Value2(s: string, i: nat): (v: int)
    requires DigitsAt(s, i, 2)
    ensures 0 <= v <= 99
  {
    10 * DigitValue(s[i]) + DigitValue(s[i + 1])
  }

  /** Value of the four digits at s[i..i+4]. */
  function Value4(s: string, i: nat): (v: int)
    requires DigitsAt(s, i, 4)
    ensures 0 <= v <= 9999
  {
    100 * Value2(s, i) + Value2(s, i + 2)
  }

  /** n as two zero-padded digits (strftime's %m, %d, %H, %M, %S). */
  function Digits2(n: int): (s: string)
    requires 0 <= n <= 99
    ensures |s| == 2 && DigitsAt(s, 0, 2) && Value2(s, 0) == n
  {
    [DigitChar(n / 10), DigitChar(n % 10)]
  }

  /** n as four zero-padded digits (strftime's %Y). */
  function Digits4(n: int): (s: string)
    requires 0 <= n <= 9999
    ensures |s| == 4 && DigitsAt(s, 0, 4) && Value4(s, 0) == n
  {
    var s := Digits2(n / 100) + Digits2(n % 100);
    assert Value2(s, 2) == n % 100 by {
      assert s[2..4] == Digits2(n % 100);
    }
    s
  }

  lemma Digits2OfValue(s: string, i: nat)
    requires DigitsAt(s, i, 2)
    ensures Digits2(Value2(s, i)) == s[i..i + 2]
  {
    var v := Value2(s, i);
    assert v / 10 == DigitValue(s[i]) && v % 10 == DigitValue(s[i + 1]);
  }

  lemma Digits4OfValue(s: string, i: nat)
    requires DigitsAt(s, i, 4)
    ensures Digits4(Value4(s, i)) == s[i..i + 4]
  {
    var v := Value4(s, i);
    assert v / 100 == Value2(s, i) && v % 100 == Value2(s, i + 2);
    Digits2OfValue(s, i);
    Digits2OfValue(s, i + 2);
    assert s[i..i + 4] == s[i..i + 2] + s[i + 2..i + 4];
  }

  /** strftime("%Y-%m-%d"): the ISO 8601 calendar date in extended format. */
  function FormatDate(d: Date): (s: string)
    requires d.Valid()
    ensures |s| == 10 && s[4] == '-' && s[7] == '-'
    ensures DigitsAt(s, 0, 4) && DigitsAt(s, 5, 2) && DigitsAt(s, 8, 2)
    ensures Value4(s, 0) == d.year && Value2(s, 5) == d.month && Value2(s, 8) == d.day
  {
    var y, m, dd := Digits4(d.year), Digits2(d.month), Digits2(d.day);
    var s := y + "-" + m + "-" + dd;
    assert s[0..4] == y && s[5..7] == m && s[8..10] == dd;
    assert forall k :: 0 <= k < 4 ==> s[k] == y[k];
    assert forall k :: 0 <= k < 2 ==> s[5 + k] == m[k] && s[8 + k] == dd[k];
    s
  }

  /** strptime(s, "%Y-%m-%d") on the whole of s; None where Python raises ValueError. */
  function ParseIsoDate(s: string): (r: Option<Date>)
    ensures r.Some? ==> r.value.Valid() && |s| == 10 && s[4] == '-' && s[7] == '-'
    ensures r.Some? ==> DigitsAt(s, 0, 4) && DigitsAt(s, 5, 2) && DigitsAt(s, 8, 2)
                        && r.value == Date(Value4(s, 0), Value2(s, 5), Value2(s, 8))
  {
    if |s| == 10 && DigitsAt(s, 0, 4) && s[4] == '-' && DigitsAt(s, 5, 2) && s[7] == '-'
       && DigitsAt(s, 8, 2)
    then
      var d := Date(Value4(s, 0), Value2(s, 5), Value2(s, 8));
      if d.Valid() then Some(d) else None
    else None
  }

  /** Parsing the text of a date gives that date back. */
  lemma ParseFormatDate(d: Date)
    requires d.Valid()
    ensures ParseIsoDate(FormatDate(d)) == Some(d)
  {
  }

  /** A string that parses as a date is exactly the text of that date. */
  lemma FormatParsedDate(s: string)
    requires ParseIsoDate(s).Some?
    ensures FormatDate(ParseIsoDate(s).value) == s
  {
    Digits4OfValue(s, 0);
    Digits2OfValue(s, 5);
    Digits2OfValue(s, 8);
    assert s == s[0..4] + s[4..5] + s[5..7] + s[7..8] + s[8..10];
  }

  /** strptime accepts exactly the texts strftime writes for valid dates. */
  lemma ParseIsoDateExactly(s: string)
    ensures ParseIsoDate(s).Some? <==> exists d: Date :: d.Valid() && FormatDate(d) == s
  {
    if ParseIsoDate(s).Some? {
      FormatParsedDate(s);
    }
    if exists d: Date :: d.Valid() && FormatDate(d) == s {
      var d: Date :| d.Valid() && FormatDate(d) == s;
      ParseFormatDate(d);
    }
  }

  /** strftime("%Y-%m-%d %H:%M:%S"). */
  function FormatStamp(t: DateTime): (s: string)
    requires t.Valid()
    ensures |s| == 19
  {
    FormatDate(t.date) + " " + Digits2(t.hour) + ":" + Digits2(t.minute) + ":" + Digits2(t.second)
  }

  /** strftime("%H:%M"). */
  function FormatHourMinute(t: DateTime): (s: string)
    requires t.Valid()
    ensures |s| == 5
  {
    Digits2(t.hour) + ":" + Digits2(t.minute)
  }
}

=== FILE: database.dfy ===
/**
 * The SQLite persistence layer as in-memory tables: a users table with a
 * unique username, a workouts table, the column list of the users table that
 * the payment migration extends, and the AUTOINCREMENT counters. Each SQL
 * statement is modelled by its effect on the rows.
 */
module Database {
  import opened Basics

  /** A row of the users table, in the column order the SELECTs return. */
  datatype UserRow = UserRow(
    id: int,
    username: string,
    password: string,
    email: string,
    lastPaymentDate: Option<string>,
    expiryDate: Option<string>)

  /** A row of the workouts table. */
  datatype WorkoutRow = WorkoutRow(id: int, userId: int, date: string)

  /** The (id, date) pair that get_workouts_by_user returns per row. */
  datatype Visit = Visit(id: int, date: string)

  /** Columns of the users table as CREATE TABLE declares them. */
  const UsersSchema: seq<string> :=
    ["id", "username", "password", "email", "last_payment_date", "expiry_date"]

  /** Columns named by create_user's INSERT. */
  const InsertColumns: seq<string> :=
    ["username", "password", "email", "last_payment_date", "expiry_date"]

  /** The account columns the store invariant requires of an existing users table. */
  const AccountColumns: seq<string> := ["username", "password", "email"]

  const LastPaymentColumn := "last_payment_date"
  const ExpiryColumn := "expiry_date"

  predicate NoDuplicates(xs: seq<string>) {
    forall i, j :: 0 <= i < j < |xs| ==> xs[i] != xs[j]
  }

  /* ---------------------------------------------------------------- users */

  predicate HasUsername(users: seq<UserRow>, name: string) {
    exists i :: 0 <= i < |users| && users[i].username == name
  }

  /** The UNIQUE constraint on users.username. */
  predicate UniqueUsernames(users: seq<UserRow>) {
    forall i, j :: 0 <= i < j < |users| ==> users[i].username != users[j].username
  }

  /** Ids handed out by AUTOINCREMENT: positive, ascending in insertion order, at most the counter. */
  predicate UserIdsIssued(users: seq<UserRow>, last: int) {
    && (forall i :: 0 <= i < |users| ==> 1 <= users[i].id <= last)
    && (forall i, j :: 0 <= i < j < |users| ==> users[i].id < users[j].id)
  }

  predicate WorkoutIdsIssued(workouts: seq<WorkoutRow>, last: int) {
    && (forall i :: 0 <= i < |workouts| ==> 1 <= workouts[i].id <= last)
    && (forall i, j :: 0 <= i < j < |workouts| ==> workouts[i].id < workouts[j].id)
  }

  /** SELECT ... FROM users WHERE username = ?, first row or None. */
  function FindUser(users: seq<UserRow>, name: string): (r: Option<UserRow>)
    ensures r.Some? ==> r.value in users && r.value.username == name
    ensures r.None? <==> !HasUsername(users, name)
  {
    if users == [] then None
    else if users[0].username == name then Some(users[0])
    else
      var r := FindUser(users[1..], name);
      assert HasUsername(users, name) ==> HasUsername(users[1..], name) by {
        if HasUsername(users, name) {
          var i :| 0 <= i < |users| && users[i].username == name;
          assert users[1..][i - 1].username == name;
        }
      }
      assert r.Some? ==> HasUsername(users, name) by {
        if r.Some? {
          var i :| 0 <= i < |users[1..]| && users[1..][i].username == name;
          assert users[i + 1].username == name;
        }
      }
      r
  }

  /** With unique usernames, the lookup returns the one row holding the name. */
  lemma {:induction false} FindUserUnique(users: seq<UserRow>, name: string, i: int)
    requires UniqueUsernames(users)
    requires 0 <= i < |users| && users[i].username == name
    ensures FindUser(users, name) == Some(users[i])
  {
    if i > 0 {
      assert users[0].username != name;
      FindUserUnique(users[1..], name, i - 1);
    }
  }

  /** The row as UPDATE users SET last_payment_date = ?, expiry_date = ? WHERE id = ? leaves it. */
  function PaidRow(u: UserRow, id: int, paymentDate: string, expiryDate: string): UserRow {
    if u.id == id then u.(lastPaymentDate := Some(paymentDate), expiryDate := Some(expiryDate))
    else u
  }

  /** The users table after the payment UPDATE. */
  function SetPayment(users: seq<UserRow>, id: int, paymentDate: string, expiryDate: string)
    : (r: seq<UserRow>)
    ensures |r| == |users|
    ensures forall i :: 0 <= i < |users| ==> r[i] == PaidRow(users[i], id, paymentDate, expiryDate)
  {
    if users == [] then []
    else [PaidRow(users[0], id, paymentDate, expiryDate)]
         + SetPayment(users[1..], id, paymentDate, expiryDate)
  }

  /**
   * The UPDATE touches only the two payment columns of the row with that id:
   * every other row, and the other columns of that row, are as before.
   */
  lemma SetPaymentOnlyThatRow(users: seq<UserRow>, id: int, paymentDate: string, expiryDate: string, i: int)
    requires 0 <= i < |users|
    ensures var r := SetPayment(users, id, paymentDate, expiryDate)[i];
      && r.id == users[i].id && r.username == users[i].username
      && r.password == users[i].password && r.email == users[i].email
      && (users[i].id != id ==> r == users[i])
      && (users[i].id == id ==> r.lastPaymentDate == Some(paymentDate) && r.expiryDate == Some(expiryDate))
  {
  }

  /** An id that no row has leaves the table as it was. */
  lemma {:induction false} SetPaymentMissingId(users: seq<UserRow>, id: int, paymentDate: string, expiryDate: string)
    requires forall i :: 0 <= i < |users| ==> users[i].id != id
    ensures SetPayment(users, id, paymentDate, expiryDate) == users
  {
    if users != [] {
      SetPaymentMissingId(users[1..], id, paymentDate, expiryDate);
    }
  }

  /* ------------------------------------------------------------- workouts */

  /** SELECT id, date FROM workouts WHERE user_id = ?, before ordering. */
  function VisitsOf(workouts: seq<WorkoutRow>, userId: int): (r: seq<Visit>)
    ensures |r| <= |workouts|
    ensures forall v :: v in r <==> exists i :: 0 <= i < |workouts| && workouts[i].userId == userId
                                                && v == Visit(workouts[i].id, workouts[i].date)
  {
    if workouts == [] then []
    else
      var rest := VisitsOf(workouts[1..], userId);
      assert forall i :: 0 < i < |workouts| ==> workouts[i] == workouts[1..][i - 1];
      assert forall i :: 0 <= i < |workouts| - 1 ==> workouts[1..][i] == workouts[i + 1];
      (if workouts[0].userId == userId then [Visit(workouts[0].id, workouts[0].date)] else [])
      + rest
  }

  /** Selecting from two stretches of the table is selecting from each in turn. */
  lemma {:induction false} VisitsOfAppend(a: seq<WorkoutRow>, b: seq<WorkoutRow>, userId: int)
    ensures VisitsOf(a + b, userId) == VisitsOf(a, userId) + VisitsOf(b, userId)
  {
    if a == [] {
      assert a + b == b;
    } else {
      var head := if a[0].userId == userId then [Visit(a[0].id, a[0].date)] else [];
      assert (a + b)[0] == a[0] && (a + b)[1..] == a[1..] + b;
      assert VisitsOf(a + b, userId) == head + VisitsOf(a[1..] + b, userId);
      assert VisitsOf(a, userId) == head + VisitsOf(a[1..], userId);
      VisitsOfAppend(a[1..], b, userId);
    }
  }

  /** Each of the user's rows gives exactly one pair: the SELECT returns as many pairs as the user has rows. */
  lemma {:induction false} VisitsOfCount(workouts: seq<WorkoutRow>, userId: int)
    ensures |VisitsOf(workouts, userId)| == |set i | 0 <= i < |workouts| && workouts[i].userId == userId|
    decreases |workouts|
  {
    var all := set i | 0 <= i < |workouts| && workouts[i].userId == userId;
    if workouts == [] {
      assert all == {};
    } else {
      var n := |workouts| - 1;
      var init := workouts[..n];
      assert workouts == init + [workouts[n]];
      VisitsOfAppend(init, [workouts[n]], userId);
      VisitsOfCount(init, userId);
      assert [workouts[n]][1..] == [];
      UserRowsLast(workouts, userId);
    }
  }

  /** The last row adds its own index to the user's row indices, or nothing. */
  lemma UserRowsLast(workouts: seq<WorkoutRow>, userId: int)
    requires workouts != []
    ensures var n := |workouts| - 1;
      |set i | 0 <= i < |workouts| && workouts[i].userId == userId|
      == |set i | 0 <= i < n && workouts[..n][i].userId == userId| + (if workouts[n].userId == userId then 1 else 0)
  {
    var n := |workouts| - 1;
    var all := set i | 0 <= i < |workouts| && workouts[i].userId == userId;
    var before := set i | 0 <= i < n && workouts[..n][i].userId == userId;
    if workouts[n].userId == userId {
      assert all == before + {n};
    } else {
      assert all == before;
    }
  }

  /** Non-decreasing by date string, checked on neighbours. */
  predicate SortedByDate(vs: seq<Visit>) {
    forall i :: 0 < i < |vs| ==> LexLeq(vs[i - 1].date, vs[i].date)
  }

  /** Neighbour order gives order between any two positions. */
  lemma {:induction false} SortedByDateAll(vs: seq<Visit>, i: int, j: int)
    requires SortedByDate(vs)
    requires 0 <= i <= j < |vs|
    ensures LexLeq(vs[i].date, vs[j].date)
    decreases j - i
  {
    if i < j {
      SortedByDateAll(vs, i + 1, j);
      LexLeqTransitive(vs[i].date, vs[i + 1].date, vs[j].date);
    }
  }

  /** Insert v before the first visit with a date not below its own. */
  function InsertByDate(v: Visit, vs: seq<Visit>): (r: seq<Visit>)
    requires SortedByDate(vs)
    ensures SortedByDate(r)
    ensures multiset(r) == multiset(vs) + multiset{v}
    ensures |r| == |vs| + 1 && (r[0] == v || (vs != [] && r[0] == vs[0]))
  {
    if vs == [] || LexLeq(v.date, vs[0].date) then
      assert ([v] + vs)[1..] == vs;
      [v] + vs
    else
      LexLessTotal(v.date, vs[0].date);
      var rest := InsertByDate(v, vs[1..]);
      assert vs == [vs[0]] + vs[1..];
      assert ([vs[0]] + rest)[1..] == rest;
      [vs[0]] + rest
  }

  /** ORDER BY date: an ordering of the visits, non-decreasing by date. */
  function SortByDate(vs: seq<Visit>): (r: seq<Visit>)
    ensures SortedByDate(r)
    ensures multiset(r) == multiset(vs)
  {
    if vs == [] then []
    else
      assert vs == [vs[0]] + vs[1..];
      InsertByDate(vs[0], SortByDate(vs[1..]))
  }

  /** Some workout of the user has a date starting with d (date LIKE d || '%', read as a plain prefix). */
  function ExistsOnDate(workouts: seq<WorkoutRow>, userId: int, d: string): (b: bool)
    ensures b <==> exists i :: 0 <= i < |workouts| && workouts[i].userId == userId
                               && StartsWith(workouts[i].date, d)
  {
    if workouts == [] then false
    else if workouts[0].userId == userId && StartsWith(workouts[0].date, d) then true
    else
      var b := ExistsOnDate(workouts[1..], userId, d);
      assert b ==> exists i :: 0 <= i < |workouts| && workouts[i].userId == userId
                               && StartsWith(workouts[i].date, d) by {
        if b {
          var i :| 0 <= i < |workouts[1..]| && workouts[1..][i].userId == userId
                   && StartsWith(workouts[1..][i].date, d);
          assert workouts[i + 1] == workouts[1..][i];
        }
      }
      assert (exists i :: 0 <= i < |workouts| && workouts[i].userId == userId
                          && StartsWith(workouts[i].date, d)) ==> b by {
        if exists i :: 0 <= i < |workouts| && workouts[i].userId == userId
                       && StartsWith(workouts[i].date, d) {
          var i :| 0 <= i < |workouts| && workouts[i].userId == userId
                   && StartsWith(workouts[i].date, d);
          assert i != 0;
          assert workouts[1..][i - 1] == workouts[i];
        }
      }
      b
  }

  /* ------------------------------------------------------------ migration */

  /** The column list after add_payment_columns: each payment column added when the list lacked it. */
  function Migrate(columns: seq<string>): (r: seq<string>)
    ensures |r| >= |columns| && r[..|columns|] == columns
    ensures LastPaymentColumn in r && ExpiryColumn in r
  {
    var withPayment := if LastPaymentColumn !in columns then columns + [LastPaymentColumn] else columns;
    var withExpiry := if ExpiryColumn !in columns then withPayment + [ExpiryColumn] else withPayment;
    assert withPayment[..|columns|] == columns;
    assert withExpiry[..|withPayment|] == withPayment;
    withExpiry
  }

  /** A second migration changes nothing. */
  lemma MigrateIdempotent(columns: seq<string>)
    ensures Migrate(Migrate(columns)) == Migrate(columns)
  {
  }

  /** The column list after n migrations. */
  function MigrateTimes(columns: seq<string>, n: nat): seq<string> {
    if n == 0 then columns else Migrate(MigrateTimes(columns, n - 1))
  }

  /** Any positive number of migrations gives the result of one. */
  lemma {:induction false} MigrateTimesIsOnce(columns: seq<string>, n: nat)
    requires n >= 1
    ensures MigrateTimes(columns, n) == Migrate(columns)
  {
    if n > 1 {
      MigrateTimesIsOnce(columns, n - 1);
      MigrateIdempotent(columns);
    }
  }

  lemma {:induction false} CountDistinct(xs: seq<string>, x: string)
    requires NoDuplicates(xs)
    ensures Count(xs, x) <= 1
  {
    if xs != [] {
      CountDistinct(xs[1..], x);
      if xs[0] == x {
        assert x !in xs[1..];
      }
    }
  }

  /**
   * On a column list without repetitions, the migration leaves each payment
   * column present exactly once, keeps the earlier columns first and in
   * order, and adds nothing else.
   */
  lemma MigrateExactlyOnce(columns: seq<string>)
    requires NoDuplicates(columns)
    ensures NoDuplicates(Migrate(columns))
    ensures Count(Migrate(columns), LastPaymentColumn) == 1
    ensures Count(Migrate(columns), ExpiryColumn) == 1
    ensures forall c :: c in Migrate(columns) ==> c in columns || c == LastPaymentColumn || c == ExpiryColumn
  {
    var r := Migrate(columns);
    assert NoDuplicates(r);
    CountDistinct(r, LastPaymentColumn);
    CountDistinct(r, ExpiryColumn);
  }

  /* ---------------------------------------------------------------- store */

  /** The database file: two tables, their rows and the AUTOINCREMENT counters. */
  class Store {
    var usersTable: bool
    var workoutsTable: bool
    var userColumns: seq<string>
    var users: seq<UserRow>
    var workouts: seq<WorkoutRow>
    var lastUserId: nat
    var lastWorkoutId: nat

    ghost predicate Valid()
      reads this
    {
      && NoDuplicates(userColumns)
      && (!usersTable ==> userColumns == [] && users == [])
      && (usersTable ==> forall c :: c in AccountColumns ==> c in userColumns)
      && (!workoutsTable ==> workouts == [])
      && UniqueUsernames(users)
      && UserIdsIssued(users, lastUserId)
      && WorkoutIdsIssued(workouts, lastWorkoutId)
    }

    /** Both tables exist and the users table has every column the INSERT names: what every request finds. */
    ghost predicate Ready()
      reads this
    {
      Valid() && usersTable && workoutsTable
      && forall c :: c in InsertColumns ==> c in userColumns
    }

    /** A database file with no tables yet. */
    constructor Empty()
      ensures Valid() && !usersTable && !workoutsTable
    {
      usersTable, workoutsTable := false, false;
      userColumns, users, workouts := [], [], [];
      lastUserId, lastWorkoutId := 0, 0;
    }

    /** A database whose empty users table was created with an earlier column list. */
    constructor Legacy(columns: seq<string>)
      requires NoDuplicates(columns) && forall c :: c in AccountColumns ==> c in columns
      ensures Valid() && usersTable && !workoutsTable && userColumns == columns && users == []
    {
      usersTable, workoutsTable := true, false;
      userColumns, users, workouts := columns, [], [];
      lastUserId, lastWorkoutId := 0, 0;
    }

    /** init_db: CREATE TABLE IF NOT EXISTS for both tables; existing tables and rows are untouched. */
    method InitDb()
      requires Valid()
      modifies this`usersTable, this`workoutsTable, this`userColumns
      ensures Valid() && usersTable && workoutsTable
      ensures userColumns == if old(usersTable) then old(userColumns) else UsersSchema
    {
      if !usersTable {
        usersTable := true;
        userColumns := UsersSchema;
      }
      if !workoutsTable {
        workoutsTable := true;
      }
    }

    /** get_user_by_username: the row holding that username, or None. */
    function UserByUsername(name: string): (r: Option<UserRow>)
      reads this
      requires Valid()
      ensures r.Some? ==> r.value in users && r.value.username == name
      ensures r.None? <==> !HasUsername(users, name)
    {
      FindUser(users, name)
    }

    /**
     * create_user: INSERT a row; any failure (the UNIQUE constraint on the
     * username, a missing table or column) is rolled back and gives None.
     */
    method CreateUser(username: string, passwordHash: string, email: string,
                      lastPaymentDate: Option<string>, expiryDate: Option<string>)
      returns (id: Option<int>)
      requires Valid()
      modifies this`users, this`lastUserId
      ensures Valid()
      ensures var accepted := old(usersTable) && (forall c :: c in InsertColumns ==> c in old(userColumns))
                              && !HasUsername(old(users), username);
        if accepted then
          && id == Some(old(lastUserId) + 1)
          && users == old(users) + [UserRow(old(lastUserId) + 1, username, passwordHash, email,
                                            lastPaymentDate, expiryDate)]
          && lastUserId == old(lastUserId) + 1
        else
          id.None? && users == old(users) && lastUserId == old(lastUserId)
    {
      if !usersTable || !(forall c :: c in InsertColumns ==> c in userColumns) {
        return None;
      }
      if FindUser(users, username).Some? {
        return None;
      }
      var newId := lastUserId + 1;
      users := users + [UserRow(newId, username, passwordHash, email, lastPaymentDate, expiryDate)];
      lastUserId := newId;
      id := Some(newId);
    }

    /** update_payment: set both payment columns of the row with that id. */
    method UpdatePayment(userId: int, paymentDate: string, expiryDate: string)
      requires Ready()
      modifies this`users
      ensures Ready()
      ensures users == SetPayment(old(users), userId, paymentDate, expiryDate)
    {
      users := SetPayment(users, userId, paymentDate, expiryDate);
    }

    /** add_payment_columns: ALTER TABLE ADD COLUMN for each payment column the table lacks. */
    method AddPaymentColumns()
      requires Valid() && usersTable
      modifies this`userColumns
      ensures Valid() && (workoutsTable ==> Ready())
      ensures userColumns == Migrate(old(userColumns))
    {
      MigrateExactlyOnce(userColumns);
      var columns := userColumns;
      if LastPaymentColumn !in columns {
        userColumns := userColumns + [LastPaymentColumn];
      }
      if ExpiryColumn !in columns {
        userColumns := userColumns + [ExpiryColumn];
      }
    }

    /** get_workouts_by_user: the user's (id, date) pairs ordered by date. */
    function WorkoutsByUser(userId: int): (r: seq<Visit>)
      reads this
      ensures SortedByDate(r)
      ensures multiset(r) == multiset(VisitsOf(workouts, userId))
    {
      SortByDate(VisitsOf(workouts, userId))
    }

    /** workout_exists_on_date: some workout of the user has a date starting with d. */
    function WorkoutExistsOnDate(userId: int, d: string): (b: bool)
      reads this
      ensures b <==> exists i :: 0 <= i < |workouts| && workouts[i].userId == userId
                                 && StartsWith(workouts[i].date, d)
    {
      ExistsOnDate(workouts, userId, d)
    }

    /**
     * add_workout: not defined in database.py; taken to INSERT a workout row
     * and return a true value, as its caller expects.
     */
    method AddWorkout(userId: int, date: string) returns (ok: bool)
      requires Ready()
      modifies this`workouts, this`lastWorkoutId
      ensures Ready()
      ensures ok
      ensures workouts == old(workouts) + [WorkoutRow(old(lastWorkoutId) + 1, userId, date)]
      ensures lastWorkoutId == old(lastWorkoutId) + 1
    {
      lastWorkoutId := lastWorkoutId + 1;
      workouts := workouts + [WorkoutRow(lastWorkoutId, userId, date)];
      ok := true;
    }
  }
}

=== FILE: gymdates.dfy ===
/**
 * The date-string logic of the web handlers: tolerant parsing of stored visit
 * timestamps, the 30-day membership expiry, the stored visit string built from
 * the form's date and time, and the "this month" filter with its sorted list
 * of distinct visit days.
 */
module GymDates {
  import opened Basics
  import opened Calendar
  import opened Database

  /* -------------------------------------------------- stored visit dates */

  /** The strptime formats _parse_date tries, in this order. */
  datatype StoredFormat =
    | DateOnly              // %Y-%m-%d
    | DateAndTime           // %Y-%m-%d %H:%M:%S
    | DateTimeAndFraction   // %Y-%m-%d %H:%M:%S.%f

  const StoredFormats: seq<StoredFormat> := [DateOnly, DateAndTime, DateTimeAndFraction]

  /** strptime(s, "%Y-%m-%d %H:%M:%S") on the whole of s. */
  function ParseStamp(s: string): (r: Option<DateTime>)
    ensures r.Some? ==> r.value.Valid() && r.value.microsecond == 0 && |s| == 19
    ensures r.Some? ==> ParseIsoDate(s[..10]) == Some(r.value.date) && s[10] == ' '
    ensures r.Some? ==> s[13] == ':' && s[16] == ':'
                        && DigitsAt(s, 11, 2) && DigitsAt(s, 14, 2) && DigitsAt(s, 17, 2)
                        && r.value.hour == Value2(s, 11) && r.value.minute == Value2(s, 14)
                        && r.value.second == Value2(s, 17)
  {
    if |s| == 19 && s[10] == ' ' && ParseIsoDate(s[..10]).Some?
       && DigitsAt(s, 11, 2) && s[13] == ':' && DigitsAt(s, 14, 2) && s[16] == ':' && DigitsAt(s, 17, 2)
    then
      var t := DateTime(ParseIsoDate(s[..10]).value, Value2(s, 11), Value2(s, 14), Value2(s, 17), 0);
      if t.Valid() then Some(t) else None
    else None
  }

  /** Decimal value of a string of digits. */
  function DecimalValue(s: string): (v: nat)
    requires DigitsAt(s, 0, |s|)
    ensures v < Pow10(|s|)
  {
    if s == [] then 0
    else
      assert DigitsAt(s[..|s| - 1], 0, |s| - 1);
      DecimalValue(s[..|s| - 1]) * 10 + DigitValue(s[|s| - 1])
  }

  function Pow10(n: nat): (p: nat)
    ensures p >= 1
  {
    if n == 0 then 1 else 10 * Pow10(n - 1)
  }

  function Zeros(n: nat): (z: string)
    ensures |z| == n && DigitsAt(z, 0, n)
  {
    if n == 0 then [] else Zeros(n - 1) + ['0']
  }

  /** strptime(s, "%Y-%m-%d %H:%M:%S.%f"): one to six fraction digits, padded on the right to microseconds. */
  function ParseStampFraction(s: string): (r: Option<DateTime>)
    ensures r.Some? ==> r.value.Valid() && 21 <= |s| <= 26
    ensures r.Some? ==> ParseIsoDate(s[..10]) == Some(r.value.date)
  {
    if 21 <= |s| <= 26 && s[19] == '.' && ParseStamp(s[..19]).Some? && DigitsAt(s[20..], 0, |s| - 20) then
      var padded := s[20..] + Zeros(26 - |s|);
      assert DigitsAt(padded, 0, 6);
      assert s[..19][..10] == s[..10];
      Some(ParseStamp(s[..19]).value.(microsecond := DecimalValue(padded)))
    else None
  }

  /** strptime(s, f) for one of the stored formats; None where Python raises ValueError. */
  function Strptime(s: string, f: StoredFormat): (r: Option<DateTime>)
    ensures r.Some? ==> r.value.Valid() && |s| >= 10 && ParseIsoDate(s[..10]) == Some(r.value.date)
    ensures r.Some? && f == DateOnly ==> |s| == 10 && r.value == Midnight(r.value.date)
    ensures r.Some? && f == DateAndTime ==> |s| == 19 && r.value.microsecond == 0
    ensures r.Some? && f == DateTimeAndFraction ==> 21 <= |s| <= 26
  {
    assert |s| == 10 ==> s[..10] == s;
    match f
    case DateOnly => (match ParseIsoDate(s) case Some(d) => Some(Midnight(d)) case None => None)
    case DateAndTime => ParseStamp(s)
    case DateTimeAndFraction => ParseStampFraction(s)
  }

  /** The first format in the list that parses s (the loop with early return), or None. */
  function FirstMatch(s: string, formats: seq<StoredFormat>): (r: Option<DateTime>)
    ensures r.None? <==> forall i :: 0 <= i < |formats| ==> Strptime(s, formats[i]).None?
    ensures r.Some? ==> exists i :: 0 <= i < |formats| && Strptime(s, formats[i]) == r
                          && forall j :: 0 <= j < i ==> Strptime(s, formats[j]).None?
  {
    if formats == [] then None
    else if Strptime(s, formats[0]).Some? then Strptime(s, formats[0])
    else
      var r := FirstMatch(s, formats[1..]);
      assert forall i :: 0 < i < |formats| ==> formats[i] == formats[1..][i - 1];
      assert r.Some? ==> exists i :: 0 <= i < |formats| && Strptime(s, formats[i]) == r
                          && forall j :: 0 <= j < i ==> Strptime(s, formats[j]).None? by {
        if r.Some? {
          var i :| 0 <= i < |formats[1..]| && Strptime(s, formats[1..][i]) == r
                   && forall j :: 0 <= j < i ==> Strptime(s, formats[1..][j]).None?;
          assert Strptime(s, formats[i + 1]) == r;
        }
      }
      r
  }

  /**
   * _parse_date: the first 19 characters of the stored value parsed with
   * each format in turn; datetime.min when none applies. Whatever it returns
   * is a valid datetime whose date is spelled by the first ten characters,
   * unless it is the sentinel.
   */
  function ParseStoredDate(value: string): (r: DateTime)
    ensures r.Valid()
    ensures r == MinDateTime || (|value| >= 10 && ParseIsoDate(value[..10]) == Some(r.date))
  {
    var head := Take(value, 19);
    match FirstMatch(head, StoredFormats)
    case Some(t) =>
      assert |head| >= 10 && head[..10] == value[..10] && ParseIsoDate(head[..10]) == Some(t.date) by {
        var i :| 0 <= i < 3 && Strptime(head, StoredFormats[i]) == Some(t);
      }
      t
    case None => MinDateTime
  }

  /** _parse_date as the loop it is: the formats tried in order, the first success returned. */
  method ParseDate(value: string) returns (t: DateTime)
    ensures t == ParseStoredDate(value)
    ensures t.Valid()
  {
    var head := Take(value, 19);
    var k := 0;
    while k < |StoredFormats|
      invariant 0 <= k <= |StoredFormats|
      invariant FirstMatch(head, StoredFormats[k..]) == FirstMatch(head, StoredFormats)
    {
      var parsed := Strptime(head, StoredFormats[k]);
      if parsed.Some? {
        return parsed.value;
      }
      assert StoredFormats[k..][1..] == StoredFormats[k + 1..];
      k := k + 1;
    }
    t := MinDateTime;
  }

  /** Because the value is cut to 19 characters, the fractional-seconds format never applies. */
  lemma FractionFormatNeverMatches(value: string)
    ensures Strptime(Take(value, 19), DateTimeAndFraction).None?
  {
  }

  /** A stored date alone parses to midnight of that date. */
  lemma ParseStoredDateOfDate(d: Date)
    requires d.Valid()
    ensures ParseStoredDate(FormatDate(d)) == Midnight(d)
  {
    ParseFormatDate(d);
    assert Take(FormatDate(d), 19) == FormatDate(d);
  }

  lemma ParseStampOfFormat(t: DateTime)
    requires t.Valid() && t.microsecond == 0
    ensures ParseStamp(FormatStamp(t)) == Some(t)
  {
    var s := FormatStamp(t);
    var h, m, sec := Digits2(t.hour), Digits2(t.minute), Digits2(t.second);
    assert s[..10] == FormatDate(t.date);
    ParseFormatDate(t.date);
    assert s[11] == h[0] && s[12] == h[1] && s[14] == m[0] && s[15] == m[1];
    assert s[17] == sec[0] && s[18] == sec[1];
  }

  /**
   * A stored "YYYY-MM-DD HH:MM:SS" stamp parses to that date and time;
   * anything after the 19th character is ignored.
   */
  lemma ParseStoredDateOfStamp(t: DateTime, rest: string)
    requires t.Valid() && t.microsecond == 0
    ensures ParseStoredDate(FormatStamp(t) + rest) == t
  {
    var s := FormatStamp(t) + rest;
    var head := Take(s, 19);
    assert head == FormatStamp(t);
    ParseStampOfFormat(t);
    assert Strptime(head, DateOnly).None?;
    assert StoredFormats[1..][0] == DateAndTime;
    assert FirstMatch(head, StoredFormats[1..]) == Some(t);
  }

  /** A value that is neither a date nor a stamp in its first 19 characters gives datetime.min. */
  lemma ParseStoredDateFallback(value: string)
    requires ParseIsoDate(Take(value, 19)).None? && ParseStamp(Take(value, 19)).None?
    ensures ParseStoredDate(value) == MinDateTime
  {
    FractionFormatNeverMatches(value);
  }

  /* ------------------------------------------------------- payment expiry */

  /** Length of a membership in days. */
  const MembershipDays := 30

  /**
   * (strptime(payment_date, "%Y-%m-%d") + timedelta(days=30)).strftime("%Y-%m-%d"):
   * None where strptime raises ValueError or the addition raises OverflowError.
   * The result is the text of the date exactly 30 days after the payment date.
   */
  function PaymentExpiry(paymentDate: string): (r: Option<string>)
    ensures r.Some? <==> ParseIsoDate(paymentDate).Some?
                         && Ordinal(ParseIsoDate(paymentDate).value) + MembershipDays <= MaxOrdinal
    ensures r.Some? ==> ParseIsoDate(r.value).Some?
                        && Ordinal(ParseIsoDate(r.value).value)
                           == Ordinal(ParseIsoDate(paymentDate).value) + MembershipDays
  {
    match ParseIsoDate(paymentDate)
    case None => None
    case Some(paid) =>
      match AddDays(paid, MembershipDays)
      case None => None
      case Some(expiry) => ParseFormatDate(expiry); Some(FormatDate(expiry))
  }

  /** For a date text, the expiry is the text of the one date that lies 30 days later. */
  lemma PaymentExpiryOf(paid: Date, expiry: Date)
    requires paid.Valid() && expiry.Valid()
    requires Ordinal(expiry) == Ordinal(paid) + MembershipDays
    ensures PaymentExpiry(FormatDate(paid)) == Some(FormatDate(expiry))
  {
    ParseFormatDate(paid);
    AddDaysUnique(paid, MembershipDays, expiry);
  }

  /** 2024-01-15 expires on 2024-02-14. */
  lemma PaymentExpiryExample()
    ensures PaymentExpiry("2024-01-15") == Some("2024-02-14")
  {
    assert FormatDate(Date(2024, 1, 15)) == "2024-01-15";
    assert FormatDate(Date(2024, 2, 14)) == "2024-02-14";
    PaymentExpiryOf(Date(2024, 1, 15), Date(2024, 2, 14));
  }

  /** The expiry crosses a leap day (2024-02-29). */
  lemma PaymentExpiryLeapYear()
    ensures PaymentExpiry("2024-02-15") == Some("2024-03-16")
  {
    assert FormatDate(Date(2024, 2, 15)) == "2024-02-15";
    assert FormatDate(Date(2024, 3, 16)) == "2024-03-16";
    PaymentExpiryOf(Date(2024, 2, 15), Date(2024, 3, 16));
  }

  /** 2100 is not a leap year: February has 28 days. */
  lemma PaymentExpiryCenturyYear()
    ensures PaymentExpiry("2100-02-15") == Some("2100-03-17")
  {
    assert FormatDate(Date(2100, 2, 15)) == "2100-02-15";
    assert FormatDate(Date(2100, 3, 17)) == "2100-03-17";
    PaymentExpiryOf(Date(2100, 2, 15), Date(2100, 3, 17));
  }

  /** The expiry crosses the end of the year. */
  lemma PaymentExpiryYearEnd()
    ensures PaymentExpiry("2023-12-15") == Some("2024-01-14")
  {
    assert FormatDate(Date(2023, 12, 15)) == "2023-12-15";
    assert FormatDate(Date(2024, 1, 14)) == "2024-01-14";
    PaymentExpiryOf(Date(2023, 12, 15), Date(2024, 1, 14));
  }

  /** Past 9999-12-31 the addition overflows and there is no expiry. */
  lemma PaymentExpiryOverflow()
    ensures PaymentExpiry("9999-12-15").None?
  {
    var paid := Date(9999, 12, 15);
    assert FormatDate(paid) == "9999-12-15";
    ParseFormatDate(paid);
    assert ParseIsoDate("9999-12-15") == Some(paid);
    assert DaysBeforeYear(9999) == 3651694;
    assert Ordinal(paid) == 3651694 + 334 + 15;
  }

  /** Malformed or impossible dates have no expiry. */
  lemma PaymentExpiryMalformed()
    ensures PaymentExpiry("2023-02-29").None?
    ensures PaymentExpiry("15/01/2024").None?
    ensures PaymentExpiry("2024-01-15 ").None?
  {
    assert ParseIsoDate("2023-02-29").None? by {
      assert !Date(2023, 2, 29).Valid();
    }
    assert ParseIsoDate("15/01/2024").None?;
    assert ParseIsoDate("2024-01-15 ").None?;
  }

  /**
   * datetime.now().replace(year=now.year + 1), the demo account's expiry:
   * None where Python raises ValueError (29 February, or year 9999).
   */
  function SameDayNextYear(d: Date): (r: Option<Date>)
    requires d.Valid()
    ensures r.Some? <==> d.year < MaxYear && !(d.month == 2 && d.day == 29)
    ensures r.Some? ==> r.value.Valid() && r.value.year == d.year + 1
                        && r.value.month == d.month && r.value.day == d.day
  {
    var next := Date(d.year + 1, d.month, d.day);
    if next.Valid() then Some(next) else None
  }

  /* ------------------------------------------------------ the visit string */

  /** The stored visit string built from the form's date and (stripped) time. */
  function VisitedAt(date: string, time: string): (r: string)
    ensures StartsWith(r, date + " ")
  {
    if time != [] then
      if ':' in time && Count(time, ':') == 1 then date + " " + time + ":00"
      else date + " " + time
    else date + " 00:00:00"
  }

  /** No time gives midnight of the chosen date. */
  lemma VisitedAtMidnight(d: Date)
    requires d.Valid()
    ensures ParseStoredDate(VisitedAt(FormatDate(d), "")) == Midnight(d)
  {
    var t := Midnight(d);
    assert VisitedAt(FormatDate(d), "") == FormatStamp(t) + "";
    ParseStoredDateOfStamp(t, "");
  }

  /** An "HH:MM" time gains ":00" and parses to that minute of the chosen date. */
  lemma VisitedAtHourMinute(d: Date, hour: int, minute: int)
    requires d.Valid() && 0 <= hour < 24 && 0 <= minute < 60
    ensures ParseStoredDate(VisitedAt(FormatDate(d), Digits2(hour) + ":" + Digits2(minute)))
            == DateTime(d, hour, minute, 0, 0)
  {
    var time := Digits2(hour) + ":" + Digits2(minute);
    OneColon(Digits2(hour), Digits2(minute));
    var t := DateTime(d, hour, minute, 0, 0);
    assert VisitedAt(FormatDate(d), time) == FormatStamp(t) + "";
    ParseStoredDateOfStamp(t, "");
  }

  /** Two fields without a colon, joined by one, hold exactly one colon. */
  lemma {:induction false} OneColon(a: string, b: string)
    requires ':' !in a && ':' !in b
    ensures Count(a + ":" + b, ':') == 1
  {
    CountAppend(a + ":", b, ':');
    CountAppend(a, ":", ':');
  }

  /** An "HH:MM:SS" time is stored as given and parses to that second. */
  lemma VisitedAtFullTime(d: Date, hour: int, minute: int, second: int)
    requires d.Valid() && 0 <= hour < 24 && 0 <= minute < 60 && 0 <= second < 60
    ensures ParseStoredDate(VisitedAt(FormatDate(d), Digits2(hour) + ":" + Digits2(minute) + ":" + Digits2(second)))
            == DateTime(d, hour, minute, second, 0)
  {
    var hh, mm, ss := Digits2(hour), Digits2(minute), Digits2(second);
    var time := hh + ":" + mm + ":" + ss;
    OneColon(hh, mm);
    CountAppend(hh + ":" + mm, ":" + ss, ':');
    assert (hh + ":" + mm) + (":" + ss) == time;
    assert Count(":" + ss, ':') == 1 by {
      assert (":" + ss)[1..] == ss;
    }
    var t := DateTime(d, hour, minute, second, 0);
    assert VisitedAt(FormatDate(d), time) == FormatStamp(t) + "";
    ParseStoredDateOfStamp(t, "");
  }

  /**
   * A time without a colon (such as "1030") is stored as it is, and the
   * stored string does not parse: it reads as datetime.min.
   */
  lemma VisitedAtNoColonUnparsable(date: string, time: string)
    requires |date| == 10 && time != [] && ':' !in time
    ensures ParseStoredDate(VisitedAt(date, time)) == MinDateTime
  {
    var s := VisitedAt(date, time);
    assert s == date + " " + time;
    var head := Take(s, 19);
    assert ParseIsoDate(head).None?;
    if |head| == 19 {
      assert head[13] == time[2];
      assert time[2] in time;
    }
    ParseStoredDateFallback(s);
  }

  /* ------------------------------------------------ the month's visits */

  /**
   * The stored value falls in the month and year of now, as _parse_date reads
   * it.  Outside January of year 1 (the sentinel's month), a counted value
   * starts with the text of a date in that month.
   */
  predicate InMonth(stored: string, now: DateTime)
    ensures InMonth(stored, now) && !(now.date.year == MinYear && now.date.month == 1) ==>
      && |stored| >= 10
      && ParseIsoDate(stored[..10]).Some?
      && ParseIsoDate(stored[..10]).value.year == now.date.year
      && ParseIsoDate(stored[..10]).value.month == now.date.month
  {
    var t := ParseStoredDate(stored);
    t.date.month == now.date.month && t.date.year == now.date.year
  }

  /** [r for r in rows if _parse_date(r[1]) is in now's month and year], in the order of rows. */
  function ThisMonth(rows: seq<Visit>, now: DateTime): (r: seq<Visit>)
    ensures forall v :: multiset(r)[v] == if InMonth(v.date, now) then multiset(rows)[v] else 0
    ensures forall v :: v in r <==> v in rows && InMonth(v.date, now)
    ensures |r| <= |rows|
  {
    if rows == [] then []
    else
      assert rows == [rows[0]] + rows[1..];
      (if InMonth(rows[0].date, now) then [rows[0]] else []) + ThisMonth(rows[1..], now)
  }

  /** Once now is past year 1, a row whose date does not parse is never counted. */
  lemma UnparsableNotCounted(rows: seq<Visit>, now: DateTime, v: Visit)
    requires now.date.year > MinYear
    requires v in rows && ParseStoredDate(v.date) == MinDateTime
    ensures v !in ThisMonth(rows, now)
  {
  }

  /** The date part of a stored value: str(d[1])[:10]. */
  function DayKey(v: Visit): (k: string)
    ensures |k| == if |v.date| < 10 then |v.date| else 10
    ensures StartsWith(v.date, k)
  {
    Take(v.date, 10)
  }

  /** The key of a visit whose date parses is the text of the day it parses to. */
  lemma DayKeyIsDay(v: Visit)
    requires ParseStoredDate(v.date) != MinDateTime
    ensures ParseIsoDate(DayKey(v)) == Some(ParseStoredDate(v.date).date)
    ensures FormatDate(ParseStoredDate(v.date).date) == DayKey(v)
  {
    FormatParsedDate(DayKey(v));
  }

  function DayKeys(vs: seq<Visit>): (r: seq<string>)
    ensures |r| == |vs| && forall i :: 0 <= i < |vs| ==> r[i] == DayKey(vs[i])
  {
    seq(|vs|, i requires 0 <= i < |vs| => DayKey(vs[i]))
  }

  /** Insert x into a strictly ascending list unless it is already there. */
  function InsertDistinct(x: string, xs: seq<string>): (r: seq<string>)
    requires StrictlyAscending(xs)
    ensures StrictlyAscending(r)
    ensures forall y :: y in r <==> y == x || y in xs
    ensures |r| <= |xs| + 1
    ensures r != [] && (r[0] == x || (xs != [] && r[0] == xs[0]))
  {
    if xs == [] then [x]
    else if x == xs[0] then xs
    else if LexLess(x, xs[0]) then
      assert ([x] + xs)[1..] == xs;
      [x] + xs
    else
      LexLessTotal(x, xs[0]);
      var rest := InsertDistinct(x, xs[1..]);
      assert xs == [xs[0]] + xs[1..];
      assert ([xs[0]] + rest)[1..] == rest;
      [xs[0]] + rest
  }

  /** sorted(set(xs)): the distinct values of xs in ascending order. */
  function SortedDistinct(xs: seq<string>): (r: seq<string>)
    ensures StrictlyAscending(r)
    ensures forall y :: y in r <==> y in xs
    ensures |r| <= |xs|
  {
    if xs == [] then []
    else
      assert xs == [xs[0]] + xs[1..];
      InsertDistinct(xs[0], SortedDistinct(xs[1..]))
  }

  /** Two strictly ascending lists with the same values are the same list, so SortedDistinct is sorted(set(xs)). */
  lemma {:induction false} AscendingUnique(a: seq<string>, b: seq<string>)
    requires StrictlyAscending(a) && StrictlyAscending(b)
    requires forall y :: y in a <==> y in b
    ensures a == b
  {
    assert a != [] ==> a[0] in b;
    assert b != [] ==> b[0] in a;
    if a != [] && b != [] {
      var i :| 0 <= i < |b| && b[i] == a[0];
      var j :| 0 <= j < |a| && a[j] == b[0];
      if i > 0 {
        StrictlyAscendingAll(b, 0, i);
        if j > 0 {
          StrictlyAscendingAll(a, 0, j);
          LexLessAsymmetric(b[0], a[0]);
        }
      }
      if j > 0 && i == 0 {
        StrictlyAscendingAll(a, 0, j);
        LexLessIrreflexive(a[0]);
      }
      assert a[0] == b[0];
      forall y
        ensures y in a[1..] <==> y in b[1..]
      {
        if y in a[1..] {
          var k :| 0 <= k < |a[1..]| && a[1..][k] == y;
          StrictlyAscendingDistinct(a, 0, k + 1);
          assert y in b;
          var l :| 0 <= l < |b| && b[l] == y;
          assert l != 0;
          assert b[1..][l - 1] == y;
        }
        if y in b[1..] {
          var k :| 0 <= k < |b[1..]| && b[1..][k] == y;
          StrictlyAscendingDistinct(b, 0, k + 1);
          assert y in a;
          var l :| 0 <= l < |a| && a[l] == y;
          assert l != 0;
          assert a[1..][l - 1] == y;
        }
      }
      AscendingUnique(a[1..], b[1..]);
      assert a == [a[0]] + a[1..] && b == [b[0]] + b[1..];
    }
  }

  /** Every day key comes from some visit, and every visit's key is there. */
  lemma DayKeysMembers(vs: seq<Visit>, day: string)
    ensures day in DayKeys(vs) <==> exists v :: v in vs && DayKey(v) == day
  {
    var keys := DayKeys(vs);
    if exists v :: v in vs && DayKey(v) == day {
      var v :| v in vs && DayKey(v) == day;
      var i :| 0 <= i < |vs| && vs[i] == v;
      assert keys[i] == day;
    }
  }

  /** The progress page's day list: sorted(set(str(d[1])[:10] for d in this_month)). */
  function MonthDays(rows: seq<Visit>, now: DateTime): (r: seq<string>)
    ensures StrictlyAscending(r)
    ensures |r| <= |ThisMonth(rows, now)|
    ensures forall day :: day in r <==> exists v :: v in ThisMonth(rows, now) && DayKey(v) == day
  {
    var month := ThisMonth(rows, now);
    var keys := DayKeys(month);
    assert forall day :: day in keys <==> exists v :: v in month && DayKey(v) == day by {
      forall day
        ensures day in keys <==> exists v :: v in month && DayKey(v) == day
      {
        DayKeysMembers(month, day);
      }
    }
    SortedDistinct(keys)
  }

  /** No day appears twice in the progress page's list. */
  lemma MonthDaysDistinct(rows: seq<Visit>, now: DateTime, i: int, j: int)
    requires 0 <= i < j < |MonthDays(rows, now)|
    ensures MonthDays(rows, now)[i] != MonthDays(rows, now)[j]
  {
    StrictlyAscendingDistinct(MonthDays(rows, now), i, j);
  }

  /** The month's count depends only on which rows there are, not on the order the database returns them in. */
  lemma ThisMonthOrderFree(a: seq<Visit>, b: seq<Visit>, now: DateTime)
    requires multiset(a) == multiset(b)
    ensures |ThisMonth(a, now)| == |ThisMonth(b, now)|
  {
    assert multiset(ThisMonth(a, now)) == multiset(ThisMonth(b, now));
    assert |multiset(ThisMonth(a, now))| == |ThisMonth(a, now)|;
  }

  /** The progress page's day list likewise depends only on which rows there are. */
  lemma MonthDaysOrderFree(a: seq<Visit>, b: seq<Visit>, now: DateTime)
    requires multiset(a) == multiset(b)
    ensures MonthDays(a, now) == MonthDays(b, now)
  {
    forall day
      ensures day in MonthDays(a, now) <==> day in MonthDays(b, now)
    {
      assert forall v :: v in a <==> v in b by {
        forall v
          ensures v in a <==> v in b
        {
          assert v in a <==> multiset(a)[v] > 0;
          assert v in b <==> multiset(b)[v] > 0;
        }
      }
    }
    AscendingUnique(MonthDays(a, now), MonthDays(b, now));
  }
}
